=== FILE: README.md ===
# Zomato data layer — a Dafny model

This project models the generic table-administration layer of the Zomato Data
Insights application (`DataHandler` in `zomato.py`), together with the
foreign-key shape of its four tables and the id choices of its sample-data
generator. The PostgreSQL database is an immutable value, and every SQL
statement the code issues is a pure function from one state to the next.

Two views of the database are used:

- **Generic store** (`record_store.dfy`). Each table has a declared column list
  and a sequence of rows. A row maps column names to cells, and a missing cell
  reads as NULL. `information_schema` is a separate sequence of catalog entries
  in arbitrary order (`introspection.dfy`). This view models `get_tables`,
  `get_columns`, `dynamic_read`, `dynamic_insert` and `dynamic_update`.
- **Typed state** (`zomato_schema.dfy`). It holds customers, restaurants,
  orders and deliveries. Each row keeps its serial id and its foreign-key
  columns; the remaining columns are an opaque payload. This view models
  `dynamic_delete` (`cascade_delete.dfy`) and `DataGenerator.generate_data`
  (`data_generator.dfy`).

`manage_data.dfy` models how the "Manage Data" page uses the layer. It takes
`columns[0]` as the primary key, offers `columns[1:]` for update, collects one
text input per column for insert, and shows its own success message after
every delete.

How a DELETE is executed in the typed state: the WHERE clause removes its
rows. Then the declared `ON DELETE CASCADE` of `deliveries.order_id` removes
the deliveries of every order the statement removed. The application's
statements delete only from `orders` and `deliveries`, so the cascades on
`orders.customer_id` and `orders.restaurant_id` never fire. A DELETE
therefore always keeps every foreign key resolvable. It fails only when
`orders` has no column of the given name, and then nothing is committed.

Behaviours of the code that the model keeps:

- `dynamic_delete` on `customers` deletes the customer's deliveries and orders
  but never the customer row itself, and it reports success
  (`CustomerDeleteKeepsCustomer`, `CustomerScenario`).
- `dynamic_delete` on `restaurants`, `deliveries` or any other table issues no
  statement and still reports success (`DynamicDelete`). `restaurants` gets no
  application-level cascade.
- `dynamic_delete` deletes dependents before the rows they reference, so with
  the key column the page passes, the declared cascade has nothing left to do
  (`PlanKeepsIntegrity`). Through `customer_id` as the key column of the orders
  branch, the cascade does the work (`DeleteByForeignKeyColumnCascades`).
- Under the declared cascades, no DELETE the code issues can raise a
  foreign-key violation, so the `ForeignKeyViolation` handler of
  `dynamic_delete` is never reached. An unknown key column reaches the general
  handler (`DynamicDelete`).
- `get_columns` returns the empty list for an unknown table instead of failing
  (`GetColumns`). `dynamic_insert` then renders `INSERT INTO t () VALUES (...)`,
  which does not parse (`DynamicInsert`).
- `dynamic_update` does not signal a miss: an update that matches no row
  succeeds and changes nothing (`UpdateMissIsSilent`).
- No rollback is issued. A failing statement leaves the committed state as it
  was only because the commit is never reached.

## Model

| member | source | states |
|---|---|---|
| Introspection.GetTables | zomato.py:189-194 | the result lists exactly the names of the catalog's tables in schema `public`, and is no longer than the catalog |
| Introspection.SortByOrdinal | zomato.py:199 | `ORDER BY ordinal_position`: the result is sorted by ordinal and is a permutation of its input |
| Introspection.GetColumns | zomato.py:197-202 | one name per catalog entry of the table; a name is listed iff the catalog has it for that table; an unknown table yields `[]` instead of an error |
| Introspection.SortedArrangementUnique | zomato.py:199 | a sorted permutation of entries whose ordinals are pairwise distinct is unique, so the ordinal order is stable |
| Introspection.ColumnsFollowDeclaration | zomato.py:197-202 | whatever order the catalog lists a table's entries in, and whatever strictly increasing ordinal positions they carry (gaps included), `get_columns` returns the columns in declaration order |
| RecordStore.DynamicRead | zomato.py:205-211 | a missing table is an error; otherwise one result row per stored row, each projected positionally onto the introspected column list that is returned with it |
| RecordStore.ReadFollowsDeclaration | zomato.py:205-211 | on a described table, the read succeeds and returns the declared column order |
| RecordStore.RowOf | zomato.py:218-223 | the stored row has exactly the named columns, and with distinct columns the i-th column holds the i-th value |
| RecordStore.DynamicInsert | zomato.py:214-225 | an empty introspected column list, or an empty value list, gives a statement that does not parse; otherwise a missing table is an error; success requires as many values as introspected columns, at least one; on success exactly one row is appended, it holds the values positionally, and nothing else changes; on a described table it succeeds iff the table has columns and the counts agree |
| RecordStore.InsertThenRead | zomato.py:205-225 | insert round trip: on a described table with at least one column, reading after inserting one value per column yields the earlier rows followed by `values`, aligned with the declared columns |
| RecordStore.InsertThenReadAnyOrder | zomato.py:205-225 | insert round trip up to row order, which `SELECT` without `ORDER BY` does not fix: the rows read after the insert are, as a multiset, the rows read before plus one row holding `values` |
| RecordStore.DynamicUpdate | zomato.py:229-238 | succeeds iff the table and both columns exist; a missing table is UndefinedTable, and a missing key column is reported before a missing target column, since the WHERE clause is resolved before the SET list; on success only `column`, and only in rows whose key cell equals the non-NULL key, takes the new value; every other cell, row and table is unchanged |
| RecordStore.UpdateIdempotent | zomato.py:229-238 | applying the same update twice gives the state that applying it once gave |
| RecordStore.UpdateMissIsSilent | zomato.py:229-238 | when no row matches, the update still succeeds and the state is unchanged, so no not-found signal exists |
| ZomatoSchema.IntegrityIsDeclaredKeys | zomato.py:64-86 | referential integrity of the typed state holds iff every declared REFERENCES constraint holds, read as inclusion of the column's values in the referenced column's values |
| ZomatoSchema.ForeignKeysReferenceFirstColumns | zomato.py:65-86 | every declared foreign-key column belongs to its table and references the first declared column (the serial primary key) of the referenced table |
| CascadeDelete.Keep | zomato.py:246-257 | a DELETE ... WHERE keeps exactly the rows that fail the condition, never adds rows, and removes nothing when no row meets the condition |
| CascadeDelete.KeepCounts | zomato.py:246-257 | every surviving row is kept as often as it occurred, and every matching row is gone |
| CascadeDelete.Execute | zomato.py:64-86 | a DELETE with the declared `ON DELETE CASCADE` fails only on a key column `orders` lacks (UndefinedColumn); otherwise it leaves customers and restaurants alone, adds no row, and keeps referential integrity |
| CascadeDelete.CascadeIdle | zomato.py:79 | when the WHERE clause orphans no delivery, the cascade removes nothing and the statement's result is its WHERE clause's |
| CascadeDelete.DynamicDelete | zomato.py:242-264 | it fails iff the table is `orders` and the key column is not a column of `orders`; the failure is UndefinedColumn and commits nothing, not even the first statement; success is reported for the given table; customers and restaurants never change; referential integrity is kept; any table other than customers and orders gives the unchanged state and success |
| CascadeDelete.RunSteps | zomato.py:244-264 | running the issued statements in one transaction fails iff one of them names a column `orders` lacks, with that column's UndefinedColumn; a successful run leaves customers and restaurants alone and keeps referential integrity |
| CascadeDelete.CustomerStepOne | zomato.py:246-249 | deleting the customer's deliveries keeps integrity, leaves orders alone and leaves no delivery of the customer's orders |
| CascadeDelete.CustomerStepTwo | zomato.py:250 | deleting the customer's orders after their deliveries keeps integrity |
| CascadeDelete.OrderStepTwo | zomato.py:252-257 | deleting the order's deliveries, and then the order through a column that is not a foreign key, keeps integrity at each step |
| CascadeDelete.PlanKeepsIntegrity | zomato.py:245-257 | with the key column the page passes, from a state with integrity, every prefix of the issued statements leaves integrity even without the cascade, so the run succeeds with exactly the rows the WHERE clauses leave |
| CascadeDelete.DeleteKeepsIntegrity | zomato.py:242-264 | with the key column the page passes, from a state with integrity, `dynamic_delete` reports success and commits exactly what its WHERE clauses leave, a state with integrity |
| CascadeDelete.CustomerDeleteRemovesDependents | zomato.py:245-250 | after deleting customer `c`, the orders left are exactly those of other customers, and the deliveries left are exactly those not belonging to an order of `c` |
| CascadeDelete.CustomerDeleteKeepsCustomer | zomato.py:245-250 | the customers branch reports success but leaves the customers and restaurants tables unchanged, so the target customer still exists |
| CascadeDelete.OrderDeleteRemovesExactly | zomato.py:252-257 | deleting order `o` through `order_id` removes exactly the orders with id `o` and the deliveries with `order_id = o`; customers and restaurants are unchanged |
| CascadeDelete.DeleteByForeignKeyColumnCascades | zomato.py:252-260 | through `customer_id` as the key column, the orders branch's statements alone would orphan a delivery; the declared cascade deletes it, and success is reported with orders and deliveries empty |
| CascadeDelete.CustomerScenario | zomato.py:245-250 | customer 1 with order 7 and its delivery: the delete removes the order and the delivery, reports success, and customer 1 remains |
| DataGenerator.Choice | zomato.py:152-153 | `random.choice` returns an element of the non-empty list it picks from |
| DataGenerator.InsertOrders | zomato.py:143-162 | fails with IndexError iff there are orders to make and a candidate list is empty; otherwise it appends one order per draw, whose customer and restaurant ids come from the candidate lists |
| DataGenerator.InsertDeliveries | zomato.py:164-182 | fails with IndexError iff there are deliveries to make and no order ids; otherwise it appends one delivery per draw, whose order id is among the order ids |
| DataGenerator.GenerateData | zomato.py:96-185 | fails only when a choice meets an empty list, which generate_data's loop counts 10/20/20/20 rule out; the drawn rows are appended; new orders reference customers and restaurants inserted by this run; new deliveries reference existing orders; integrity is kept |
| DataGenerator.GeneratedIntegrity | zomato.py:143-182 | appending orders drawn from the inserted ids, and deliveries drawn from the table's orders, keeps referential integrity |
| ManageData.KeyConvention | zomato.py:350-353 | with a non-empty column list, the list is the key followed by the update choices, and with distinct columns the key is not among the choices; an empty list raises IndexError |
| ManageData.ManageUpdate | zomato.py:348-357 | no columns raises IndexError; a key-only table has no column to update and fails; success needs at least two columns and an existing table |
| ManageData.ManageUpdateIsKeyedUpdate | zomato.py:350-356 | when `get_columns` returns at least two columns, the page's update is `dynamic_update` keyed by `columns[0]` on the column the pick selects among `columns[1:]` |
| ManageData.UpdateThroughIsKeyed | zomato.py:350-356 | the same for any column list of at least two columns, before `get_columns` is consulted |
| ManageData.ManageUpdateKeepsKeys | zomato.py:351-356 | on a described table with at least two columns, the page's update succeeds; it never changes any row's primary-key cell; exactly the picked column of the rows whose key equals the typed key takes the new text, and every other cell is unchanged |
| ManageData.ManageInsert | zomato.py:340-346 | a table the catalog lists no column for gives a statement that does not parse; otherwise an insert into a missing table is an error |
| ManageData.ManageInsertReadsBack | zomato.py:342-346 | on a described table with at least one column, one text input per column makes the insert succeed, when every text is accepted by its column's type and constraints (cells are untyped here), and it reads back as the typed values |
| ManageData.ManageDelete | zomato.py:359-366 | no columns raises IndexError; otherwise the page shows the delete's own message and then a success message, even after a failure |
| ManageData.ManageDeleteKeepsIntegrity | zomato.py:361-366 | on the declared schema, deleting from any of the four tables through the page commits exactly what `dynamic_delete` keyed by the table's first declared column commits (orders by `order_id`), keeps integrity, and shows two success messages |

## Left out

- CascadeDelete.DynamicDelete: in the orders branch, a key column that `orders` has, other than `order_id`, `customer_id` or `restaurant_id`, is treated as matching no row. The other order columns are opaque, so how PostgreSQL would compare them with the key value, or reject the value for the column's type, is not modelled.
- CascadeDelete.DynamicDelete: the key is an integer. Casting the typed text to an integer is not modelled, and neither is the error PostgreSQL raises when that cast fails.
- RecordStore.DynamicUpdate and RecordStore.DynamicInsert: cell values are opaque text. Column types, casts, and the unique, foreign-key and type constraints PostgreSQL checks on insert and update are not modelled.
- RecordStore.DynamicInsert: when several errors apply at once, which one PostgreSQL reports first is not modelled. Only the fact that some error is raised and nothing changes is modelled.
- RecordStore.DynamicUpdate: the `ON UPDATE CASCADE` actions (zomato.py:67-68, 79) are not modelled. A direct `dynamic_update` of `orders.order_id`, `customers.customer_id` or `restaurants.restaurant_id` would rewrite the referencing column in the other table, but the generic store has no link between tables, so the model changes only the named table. The Manage Data page never issues such an update, because it never offers `columns[0]` for update (zomato.py:351-353).
- CascadeDelete.DynamicDelete: the `ON DELETE CASCADE` actions of `orders.customer_id` and `orders.restaurant_id` (zomato.py:67-68) are not modelled. They fire only when a customer or restaurant row is deleted, and `dynamic_delete` never issues such a statement.
- RecordStore.DynamicRead: `SELECT ... FROM t` without `ORDER BY` (zomato.py:208) returns rows in no fixed order, and an insert or update may place a row anywhere in the table. The model returns rows in storage order and appends on insert, so "the earlier rows followed by `values`" in InsertThenRead and ManageInsertReadsBack describes the model's order only. Independent of order, the rows read back are the earlier rows plus one row holding `values` (InsertThenReadAnyOrder).
- SQL text construction, identifier quoting with `psycopg2.sql`, and the injection risk in the f-string query of `get_columns`. Identifiers are abstract strings.
- `get_columns` also lists same-named tables of other schemas, because it does not filter by schema. The model keeps this, but does not model how such ties are ordered.
- The Streamlit page itself (menu, widgets, rendering, the View Data warning), Lottie loading, the database connection, credentials, and the cursor, commit and close lifecycle. These are presentation and I/O.
- `QueryExecutor.execute_query` and the twenty canned queries. Their results depend entirely on the SQL engine and pandas.
- Executing the schema DDL in `TableManager.create_tables`. Only the declared column lists and foreign keys are modelled.
- Faker and random value generation, floats, ratings, amounts and timestamps. Payloads are opaque, and the random picks and serial ids are a parameter.
- Nullable foreign keys. The schema allows a NULL `customer_id`, `restaurant_id` or `order_id`, but no path in the application creates one, so foreign keys are non-null integers.

=== FILE: cascade_delete.dfy ===
/**
 DataHandler.dynamic_delete on the typed state. The call issues a fixed
 sequence of DELETE statements chosen by the table name alone, each a filter
 over one table; the sequence is committed only when every statement
 succeeded. The statements delete only from orders and deliveries, so of the
 declared ON DELETE CASCADE actions only the one of deliveries.order_id can
 fire: deleting an order also deletes the deliveries that reference it.
 */
module CascadeDelete {
  import opened DbErrors
  import opened ZomatoSchema

  datatype Statement =
    /** DELETE FROM deliveries WHERE order_id IN (SELECT order_id FROM orders WHERE customer_id = c) */
    | DeleteDeliveriesOfCustomer(customer: Key)
    /** DELETE FROM orders WHERE customer_id = c */
    | DeleteOrdersOfCustomer(customer: Key)
    /** DELETE FROM deliveries WHERE order_id = o */
    | DeleteDeliveriesOfOrder(order: Key)
    /** DELETE FROM orders WHERE <column> = v, with the caller's primary-key column */
    | DeleteOrdersWhere(column: Ident, value: Key)

  /** The statements dynamic_delete issues, in order. Other tables get none. */
  function Plan(table: Ident, pkColumn: Ident, key: Key): seq<Statement> {
    if table == "customers" then [DeleteDeliveriesOfCustomer(key), DeleteOrdersOfCustomer(key)]
    else if table == "orders" then [DeleteDeliveriesOfOrder(key), DeleteOrdersWhere(pkColumn, key)]
    else []
  }

  /** The rows a DELETE leaves: those failing its WHERE condition, each as often as before. */
  function Keep<T(!new)>(s: seq<T>, keep: T -> bool): (r: seq<T>)
    ensures |r| <= |s|
    ensures forall x :: x in r <==> x in s && keep(x)
    ensures (forall x :: x in s ==> keep(x)) ==> r == s
  {
    if s == [] then []
    else
      var rest := Keep(s[1..], keep);
      assert forall x :: x in s <==> x == s[0] || x in s[1..];
      if keep(s[0]) then [s[0]] + rest else rest
  }

  /** A DELETE keeps every surviving row as often as it occurred, and no other row. */
  lemma {:induction false} KeepCounts<T(!new)>(s: seq<T>, keep: T -> bool, x: T)
    ensures multiset(Keep(s, keep))[x] == if keep(x) then multiset(s)[x] else 0
    decreases |s|
  {
    if s != [] {
      KeepCounts(s[1..], keep, x);
      assert s == [s[0]] + s[1..];
    }
  }

  /**
   The value of an integer key column of an order. The other columns of
   orders are opaque, and a comparison against one of them matches no row;
   a column orders does not have is rejected before any row is compared.
   */
  function OrderKeyCell(o: Order, column: Ident): Option<Key> {
    if column == "order_id" then Some(o.id)
    else if column == "customer_id" then Some(o.customerId)
    else if column == "restaurant_id" then Some(o.restaurantId)
    else None
  }

  predicate OrderMatches(o: Order, column: Ident, key: Key) {
    OrderKeyCell(o, column) == Some(key)
  }

  /** The IN subquery: `d` belongs to an order of customer `c`. */
  predicate OfCustomer(db: Db, d: Delivery, c: Key) {
    exists o :: o in db.orders && o.customerId == c && o.id == d.orderId
  }

  /** The rows a statement's WHERE clause removes, before any cascade. */
  function Apply(db: Db, s: Statement): Db {
    match s
    case DeleteDeliveriesOfCustomer(c) => db.(deliveries := Keep(db.deliveries, (d: Delivery) => !OfCustomer(db, d, c)))
    case DeleteOrdersOfCustomer(c) => db.(orders := Keep(db.orders, (o: Order) => o.customerId != c))
    case DeleteDeliveriesOfOrder(k) => db.(deliveries := Keep(db.deliveries, (d: Delivery) => d.orderId != k))
    case DeleteOrdersWhere(col, v) => db.(orders := Keep(db.orders, (o: Order) => !OrderMatches(o, col, v)))
  }

  /** Order `k` existed before the statement and is gone after it. */
  predicate OrderRemoved(before: Db, after: Db, k: Key) {
    HasOrder(before, k) && !HasOrder(after, k)
  }

  /**
   ON DELETE CASCADE of deliveries.order_id: the deliveries of every order the
   statement removed are deleted with it.
   */
  function Cascade(before: Db, after: Db): Db {
    after.(deliveries := Keep(after.deliveries, (d: Delivery) => !OrderRemoved(before, after, d.orderId)))
  }

  /**
   One statement as the engine runs it: the WHERE clause, then the cascade.
   Only a key column orders does not have makes it fail. It never touches
   customers or restaurants, never adds a row, and keeps referential
   integrity: whatever the WHERE clause orphans, the cascade removes.
   */
  function Execute(db: Db, s: Statement): (r: Result<Db>)
    ensures r.Err? <==> s.DeleteOrdersWhere? && s.column !in OrderColumns
    ensures r.Err? ==> r.error == UndefinedColumn("orders", s.column)
    ensures r.Ok? ==> r.value.customers == db.customers && r.value.restaurants == db.restaurants
    ensures r.Ok? ==> (forall o :: o in r.value.orders ==> o in db.orders) && (forall d :: d in r.value.deliveries ==> d in db.deliveries)
    ensures r.Ok? && Integrity(db) ==> Integrity(r.value)
  {
    if s.DeleteOrdersWhere? && s.column !in OrderColumns then Err(UndefinedColumn("orders", s.column))
    else
      var after := Cascade(db, Apply(db, s));
      assert Integrity(db) ==> Integrity(after) by {
        if Integrity(db) {
          forall d | d in after.deliveries ensures HasOrder(after, d.orderId) {
            assert d in db.deliveries && !OrderRemoved(db, Apply(db, s), d.orderId);
          }
          forall o | o in after.orders ensures HasCustomer(after, o.customerId) && HasRestaurant(after, o.restaurantId) {
            assert o in db.orders;
          }
        }
      }
      Ok(after)
  }

  /** When the WHERE clause orphans no delivery, the cascade removes nothing. */
  lemma CascadeIdle(db: Db, s: Statement)
    requires Integrity(Apply(db, s))
    requires !(s.DeleteOrdersWhere? && s.column !in OrderColumns)
    ensures Execute(db, s) == Ok(Apply(db, s))
  {
    var a := Apply(db, s);
    assert forall d :: d in a.deliveries ==> !OrderRemoved(db, a, d.orderId);
    assert Cascade(db, a) == a;
  }

  /** The statements applied in order, without cascades. */
  function ApplyAll(db: Db, stmts: seq<Statement>): Db
    decreases |stmts|
  {
    if stmts == [] then db else ApplyAll(Apply(db, stmts[0]), stmts[1..])
  }

  /** The statements executed in order inside one transaction; the first failure stops the run. */
  function Run(db: Db, stmts: seq<Statement>): Result<Db>
    decreases |stmts|
  {
    if stmts == [] then Ok(db)
    else
      var next :- Execute(db, stmts[0]);
      Run(next, stmts[1..])
  }

  /** What dynamic_delete shows: the success message, or the caught error. */
  datatype Report = Deleted(table: Ident) | Failed(error: DbError)

  datatype Outcome = Outcome(db: Db, report: Report)

  /**
   DataHandler.dynamic_delete. On success the new state is committed and
   success is reported, whatever the table; on a failure nothing is committed.
   The only failure is a key column orders does not have. No branch touches
   customers or restaurants, a table other than customers and orders issues
   no statement at all, and referential integrity is always kept.
   */
  function DynamicDelete(db: Db, table: Ident, pkColumn: Ident, key: Key): (r: Outcome)
    ensures r.report.Deleted? ==> r.report.table == table
    ensures r.report.Failed? <==> table == "orders" && pkColumn !in OrderColumns
    ensures r.report.Failed? ==> r.db == db && r.report.error == UndefinedColumn("orders", pkColumn)
    ensures r.db.customers == db.customers && r.db.restaurants == db.restaurants
    ensures Integrity(db) ==> Integrity(r.db)
    ensures table != "customers" && table != "orders" ==> r == Outcome(db, Deleted(table))
  {
    var plan := Plan(table, pkColumn, key);
    RunSteps(db, plan);
    match Run(db, plan)
    case Ok(after) => Outcome(after, Deleted(table))
    case Err(e) =>
      assert table == "orders" && plan[1..][0] == DeleteOrdersWhere(pkColumn, key);
      Outcome(db, Failed(e))
  }

  /** What a run of statements keeps, and when it fails. */
  lemma {:induction false} RunSteps(db: Db, stmts: seq<Statement>)
    ensures Run(db, stmts).Ok? ==>
      && Run(db, stmts).value.customers == db.customers
      && Run(db, stmts).value.restaurants == db.restaurants
      && (Integrity(db) ==> Integrity(Run(db, stmts).value))
    ensures Run(db, stmts).Err? <==> exists i :: 0 <= i < |stmts| && stmts[i].DeleteOrdersWhere? && stmts[i].column !in OrderColumns
    ensures Run(db, stmts).Err? ==>
      exists i :: 0 <= i < |stmts| && stmts[i].DeleteOrdersWhere? && Run(db, stmts).error == UndefinedColumn("orders", stmts[i].column)
    decreases |stmts|
  {
    if stmts != [] {
      assert forall i :: 1 <= i < |stmts| ==> stmts[i] == stmts[1..][i - 1];
      if Execute(db, stmts[0]).Ok? {
        RunSteps(Execute(db, stmts[0]).value, stmts[1..]);
        if Run(db, stmts).Err? {
          var j :| 0 <= j < |stmts[1..]| && stmts[1..][j].DeleteOrdersWhere? && Run(db, stmts).error == UndefinedColumn("orders", stmts[1..][j].column);
          assert stmts[j + 1].DeleteOrdersWhere? && Run(db, stmts).error == UndefinedColumn("orders", stmts[j + 1].column);
        }
      } else {
        assert Run(db, stmts).error == UndefinedColumn("orders", stmts[0].column);
      }
    }
  }

  /** The state after the customers branch's first statement. */
  lemma CustomerStepOne(db: Db, c: Key)
    requires Integrity(db)
    ensures var a := Apply(db, DeleteDeliveriesOfCustomer(c));
      && Integrity(a)
      && a.orders == db.orders
      && forall d :: d in a.deliveries ==> !OfCustomer(db, d, c)
  {
  }

  lemma CustomerStepTwo(db: Db, c: Key)
    requires Integrity(db)
    ensures Integrity(Apply(Apply(db, DeleteDeliveriesOfCustomer(c)), DeleteOrdersOfCustomer(c)))
  {
    var a := Apply(db, DeleteDeliveriesOfCustomer(c));
    var b := Apply(a, DeleteOrdersOfCustomer(c));
    CustomerStepOne(db, c);
    forall d | d in b.deliveries ensures HasOrder(b, d.orderId) {
      assert d in a.deliveries;
      var o :| o in a.orders && o.id == d.orderId;
      assert !OfCustomer(db, d, c);
      assert o.customerId != c;
      assert o in b.orders;
    }
  }

  lemma OrderStepTwo(db: Db, pkColumn: Ident, k: Key)
    requires Integrity(db)
    requires pkColumn != "customer_id" && pkColumn != "restaurant_id"
    ensures Integrity(Apply(db, DeleteDeliveriesOfOrder(k)))
    ensures Integrity(Apply(Apply(db, DeleteDeliveriesOfOrder(k)), DeleteOrdersWhere(pkColumn, k)))
  {
    var a := Apply(db, DeleteDeliveriesOfOrder(k));
    var b := Apply(a, DeleteOrdersWhere(pkColumn, k));
    forall d | d in b.deliveries ensures HasOrder(b, d.orderId) {
      assert d in a.deliveries && d in db.deliveries;
      var o :| o in a.orders && o.id == d.orderId;
      assert !OrderMatches(o, pkColumn, k);
      assert o in b.orders;
    }
  }

  lemma TwoStatements(db: Db, s0: Statement, s1: Statement)
    ensures ApplyAll(db, [s0, s1][..0]) == db
    ensures ApplyAll(db, [s0, s1][..1]) == Apply(db, s0)
    ensures ApplyAll(db, [s0, s1][..2]) == Apply(Apply(db, s0), s1)
    ensures Execute(db, s0) == Ok(Apply(db, s0)) && Execute(Apply(db, s0), s1) == Ok(Apply(Apply(db, s0), s1)) ==>
      Run(db, [s0, s1]) == Ok(Apply(Apply(db, s0), s1))
  {
    assert [s0, s1][..1] == [s0];
    assert [s0, s1][..2] == [s0, s1];
    assert [s0, s1][1..] == [s1];
    assert [s0][1..] == [];
    assert [s1][1..] == [];
    var a := Apply(db, s0);
    var b := Apply(a, s1);
    assert ApplyAll(db, [s0]) == ApplyAll(a, []) == a;
    assert ApplyAll(a, [s1]) == ApplyAll(b, []) == b;
    assert ApplyAll(db, [s0, s1]) == ApplyAll(a, [s1]);
    if Execute(db, s0) == Ok(a) && Execute(a, s1) == Ok(b) {
      assert Run(b, []) == Ok(b);
      assert Run(a, [s1]) == Run(b, []);
      assert Run(db, [s0, s1]) == Run(a, [s1]);
    }
  }

  /**
   The application's statement order makes the cascade unnecessary: from a
   state with referential integrity, every prefix of the statements, applied
   without cascades, leaves integrity intact, because dependents are deleted
   before the rows they reference; so the run's result is exactly the rows
   the WHERE clauses remove. The orders branch needs its key column to be one
   no delivery depends on through another order, which the order_id column
   the UI passes is.
   */
  lemma PlanKeepsIntegrity(db: Db, table: Ident, pkColumn: Ident, key: Key)
    requires Integrity(db)
    requires table == "orders" ==> pkColumn in OrderColumns && pkColumn != "customer_id" && pkColumn != "restaurant_id"
    ensures forall k :: 0 <= k <= |Plan(table, pkColumn, key)| ==> Integrity(ApplyAll(db, Plan(table, pkColumn, key)[..k]))
    ensures Run(db, Plan(table, pkColumn, key)) == Ok(ApplyAll(db, Plan(table, pkColumn, key)))
  {
    var plan := Plan(table, pkColumn, key);
    if table == "customers" {
      CustomerStepOne(db, key);
      CustomerStepTwo(db, key);
      PlainRun(db, plan[0], plan[1]);
    } else if table == "orders" {
      OrderStepTwo(db, pkColumn, key);
      PlainRun(db, plan[0], plan[1]);
    } else {
      assert plan == [] && plan[..0] == [];
    }
  }

  /** Two statements that each leave integrity run without the cascade firing. */
  lemma PlainRun(db: Db, s0: Statement, s1: Statement)
    requires Integrity(db) && Integrity(Apply(db, s0)) && Integrity(Apply(Apply(db, s0), s1))
    requires !s0.DeleteOrdersWhere? && !(s1.DeleteOrdersWhere? && s1.column !in OrderColumns)
    ensures forall k :: 0 <= k <= 2 ==> Integrity(ApplyAll(db, [s0, s1][..k]))
    ensures Run(db, [s0, s1]) == Ok(ApplyAll(db, [s0, s1]))
  {
    PrefixesKeepIntegrity(db, s0, s1);
    PlainRunCommits(db, s0, s1);
  }

  /** Every prefix of a two-statement plan leaves an intact state when each step does. */
  lemma PrefixesKeepIntegrity(db: Db, s0: Statement, s1: Statement)
    requires Integrity(db) && Integrity(Apply(db, s0)) && Integrity(Apply(Apply(db, s0), s1))
    ensures forall k :: 0 <= k <= 2 ==> Integrity(ApplyAll(db, [s0, s1][..k]))
  {
    TwoStatements(db, s0, s1);
  }

  /** With no cascade to fire, running a two-statement plan commits its plain application. */
  lemma PlainRunCommits(db: Db, s0: Statement, s1: Statement)
    requires Integrity(Apply(db, s0)) && Integrity(Apply(Apply(db, s0), s1))
    requires !s0.DeleteOrdersWhere? && !(s1.DeleteOrdersWhere? && s1.column !in OrderColumns)
    ensures Run(db, [s0, s1]) == Ok(ApplyAll(db, [s0, s1]))
  {
    CascadeIdle(db, s0);
    CascadeIdle(Apply(db, s0), s1);
    TwoStatements(db, s0, s1);
    assert [s0, s1][..2] == [s0, s1];
  }

  /**
   Through the key column the UI passes, dynamic_delete reports success and
   commits exactly what its WHERE clauses remove.
   */
  lemma DeleteKeepsIntegrity(db: Db, table: Ident, pkColumn: Ident, key: Key)
    requires Integrity(db)
    requires table == "orders" ==> pkColumn in OrderColumns && pkColumn != "customer_id" && pkColumn != "restaurant_id"
    ensures DynamicDelete(db, table, pkColumn, key) == Outcome(ApplyAll(db, Plan(table, pkColumn, key)), Deleted(table))
    ensures Integrity(DynamicDelete(db, table, pkColumn, key).db)
  {
    PlanKeepsIntegrity(db, table, pkColumn, key);
    var plan := Plan(table, pkColumn, key);
    assert plan[..|plan|] == plan;
  }

  /**
   The customers branch removes the customer's orders and their deliveries,
   and exactly those.
   */
  lemma CustomerDeleteRemovesDependents(db: Db, pkColumn: Ident, c: Key)
    requires Integrity(db)
    ensures var r := DynamicDelete(db, "customers", pkColumn, c);
      && r.report == Deleted("customers")
      && (forall o :: o in r.db.orders <==> o in db.orders && o.customerId != c)
      && (forall d :: d in r.db.deliveries <==> d in db.deliveries && !OfCustomer(db, d, c))
  {
    DeleteKeepsIntegrity(db, "customers", pkColumn, c);
    var s0, s1 := DeleteDeliveriesOfCustomer(c), DeleteOrdersOfCustomer(c);
    TwoStatements(db, s0, s1);
    assert Plan("customers", pkColumn, c) == [s0, s1][..2];
    var a := Apply(db, s0);
    assert DynamicDelete(db, "customers", pkColumn, c).db == Apply(a, s1);
    assert a.orders == db.orders;
  }

  /**
   The customers branch leaves the customers table itself unchanged: the
   target customer row survives even though success is reported.
   */
  lemma CustomerDeleteKeepsCustomer(db: Db, pkColumn: Ident, c: Key)
    requires Integrity(db)
    requires HasCustomer(db, c)
    ensures var r := DynamicDelete(db, "customers", pkColumn, c);
      && r.report == Deleted("customers")
      && HasCustomer(r.db, c)
      && r.db.customers == db.customers
      && r.db.restaurants == db.restaurants
  {
    DeleteKeepsIntegrity(db, "customers", pkColumn, c);
  }

  /**
   The orders branch through order_id removes the deliveries of that order
   and the order rows with that id, and nothing else.
   */
  lemma OrderDeleteRemovesExactly(db: Db, o: Key)
    requires Integrity(db)
    ensures var r := DynamicDelete(db, "orders", "order_id", o);
      && r.report == Deleted("orders")
      && (forall x :: x in r.db.orders <==> x in db.orders && x.id != o)
      && (forall d :: d in r.db.deliveries <==> d in db.deliveries && d.orderId != o)
      && r.db.customers == db.customers
      && r.db.restaurants == db.restaurants
  {
    assert OrderColumns[0] == "order_id";
    DeleteKeepsIntegrity(db, "orders", "order_id", o);
    var s0, s1 := DeleteDeliveriesOfOrder(o), DeleteOrdersWhere("order_id", o);
    TwoStatements(db, s0, s1);
    assert Plan("orders", "order_id", o) == [s0, s1][..2];
    assert DynamicDelete(db, "orders", "order_id", o).db == Apply(Apply(db, s0), s1);
  }

  /**
   Through a foreign-key column the orders branch relies on the cascade: its
   first statement deletes deliveries by order_id = value, its second deletes
   orders by customer_id = value. With value 1, the second statement alone
   would orphan the delivery of order 7 of customer 1; the cascade deletes
   that delivery, and success is reported.
   */
  lemma DeleteByForeignKeyColumnCascades()
    ensures
      var db := Db([Customer(1, [])], [Restaurant(1, [])], [Order(7, 1, 1, [])], [Delivery(3, 7, [])]);
      && Integrity(db)
      && !Integrity(ApplyAll(db, Plan("orders", "customer_id", 1)))
      && DynamicDelete(db, "orders", "customer_id", 1) == Outcome(Db(db.customers, db.restaurants, [], []), Deleted("orders"))
  {
    var db := Db([Customer(1, [])], [Restaurant(1, [])], [Order(7, 1, 1, [])], [Delivery(3, 7, [])]);
    assert HasCustomer(db, 1) && HasRestaurant(db, 1) && HasOrder(db, 7) by {
      assert db.customers[0] in db.customers && db.restaurants[0] in db.restaurants && db.orders[0] in db.orders;
    }
    var s0, s1 := DeleteDeliveriesOfOrder(1), DeleteOrdersWhere("customer_id", 1);
    var a := Apply(db, s0);
    assert a.deliveries == db.deliveries;
    assert Execute(db, s0) == Ok(a) by {
      CascadeIdle(db, s0);
    }
    var b := Apply(a, s1);
    assert b.orders == [];
    assert OrderRemoved(a, b, 7);
    assert db.deliveries[0] in b.deliveries && !Integrity(b);
    assert Cascade(a, b).deliveries == [];
    assert OrderColumns[1] == "customer_id";
    TwoStatements(db, s0, s1);
    assert [s0, s1][1..] == [s1] && [s1][1..] == [];
  }

  /**
   Customer 1 with order 7 and its delivery: deleting customer 1 removes the
   order and the delivery and reports success, and customer 1 remains.
   */
  lemma CustomerScenario()
    ensures
      var db := Db([Customer(1, ["Alice"])], [Restaurant(2, [])], [Order(7, 1, 2, [])], [Delivery(4, 7, [])]);
      var r := DynamicDelete(db, "customers", "customer_id", 1);
      r == Outcome(Db([Customer(1, ["Alice"])], [Restaurant(2, [])], [], []), Deleted("customers"))
  {
    var db := Db([Customer(1, ["Alice"])], [Restaurant(2, [])], [Order(7, 1, 2, [])], [Delivery(4, 7, [])]);
    assert Integrity(db) by {
      assert db.customers[0] in db.customers && db.restaurants[0] in db.restaurants && db.orders[0] in db.orders;
    }
    var s0, s1 := DeleteDeliveriesOfCustomer(1), DeleteOrdersOfCustomer(1);
    DeleteKeepsIntegrity(db, "customers", "customer_id", 1);
    TwoStatements(db, s0, s1);
    assert Plan("customers", "customer_id", 1) == [s0, s1][..2];
    assert OfCustomer(db, db.deliveries[0], 1) by {
      assert db.orders[0] in db.orders;
    }
    var a := Apply(db, s0);
    assert a.deliveries == [] by {
      assert db.deliveries[1..] == [];
    }
    var b := Apply(a, s1);
    assert b.orders == [] by {
      assert a.orders[1..] == [];
    }
  }
}

=== FILE: data_generator.dfy ===
/**
 DataGenerator.generate_data: insert customers and restaurants, then orders
 whose foreign keys are chosen among the ids just inserted, then deliveries
 whose order is chosen among all order ids in the table. The random draws and
 the ids the engine's SERIAL columns hand back are a parameter; the faker
 payloads are opaque. `random.choice` on an empty list raises IndexError,
 after which nothing is committed.
 */
module DataGenerator {
  import opened DbErrors
  import opened ZomatoSchema

  /** One generated order: the id the engine assigns and the two random picks. */
  datatype OrderDraw = OrderDraw(id: Key, customerPick: nat, restaurantPick: nat, details: Payload)

  /** One generated delivery: the id the engine assigns and the random pick of its order. */
  datatype DeliveryDraw = DeliveryDraw(id: Key, orderPick: nat, details: Payload)

  /** The customers and restaurants carry the ids RETURNING hands back. */
  datatype Draws = Draws(customers: seq<Customer>, restaurants: seq<Restaurant>, orders: seq<OrderDraw>, deliveries: seq<DeliveryDraw>)

  const CustomerCount: nat := 10
  const RestaurantCount: nat := 20
  const OrderCount: nat := 20
  const DeliveryCount: nat := 20

  /** The loop counts generate_data uses. */
  predicate GeneratorCounts(draws: Draws) {
    && |draws.customers| == CustomerCount
    && |draws.restaurants| == RestaurantCount
    && |draws.orders| == OrderCount
    && |draws.deliveries| == DeliveryCount
  }

  /** random.choice: the pick selects one element of a non-empty list. */
  function Choice(xs: seq<Key>, pick: nat): (r: Key)
    requires |xs| > 0
    ensures r in xs
  {
    xs[pick % |xs|]
  }

  /** The cases in which some random.choice meets an empty list. */
  predicate ChoosesFromEmpty(db: Db, draws: Draws) {
    || (|draws.orders| > 0 && (|draws.customers| == 0 || |draws.restaurants| == 0))
    || (|draws.deliveries| > 0 && |db.orders| + |draws.orders| == 0)
  }

  /** The id column of every row, in table order (the RETURNING values, or SELECT order_id). */
  function Ids<T>(rows: seq<T>, id: T -> Key): (ids: seq<Key>)
    ensures |ids| == |rows|
    ensures forall k :: 0 <= k < |rows| ==> ids[k] == id(rows[k])
  {
    seq(|rows|, k requires 0 <= k < |rows| => id(rows[k]))
  }

  /** Every row of `orders` from position `from` on references ids among the given lists. */
  predicate OrdersDrawnFrom(orders: seq<Order>, from: nat, customerIds: seq<Key>, restaurantIds: seq<Key>) {
    forall i :: from <= i < |orders| ==> orders[i].customerId in customerIds && orders[i].restaurantId in restaurantIds
  }

  /** Order `o` references a customer and a restaurant that this run inserted. */
  predicate DrawnFrom(o: Order, draws: Draws) {
    && (exists c :: c in draws.customers && c.id == o.customerId)
    && (exists x :: x in draws.restaurants && x.id == o.restaurantId)
  }

  /** Ids taken from the inserted rows' id lists belong to inserted rows. */
  lemma {:induction false} OrdersReferenceDraws(orders: seq<Order>, from: nat, draws: Draws, customerIds: seq<Key>, restaurantIds: seq<Key>)
    requires |customerIds| == |draws.customers| && forall k :: 0 <= k < |customerIds| ==> customerIds[k] == draws.customers[k].id
    requires |restaurantIds| == |draws.restaurants| && forall k :: 0 <= k < |restaurantIds| ==> restaurantIds[k] == draws.restaurants[k].id
    requires OrdersDrawnFrom(orders, from, customerIds, restaurantIds)
    ensures forall i :: from <= i < |orders| ==> DrawnFrom(orders[i], draws)
  {
    forall i | from <= i < |orders| ensures DrawnFrom(orders[i], draws) {
      var ci :| 0 <= ci < |customerIds| && customerIds[ci] == orders[i].customerId;
      var xi :| 0 <= xi < |restaurantIds| && restaurantIds[xi] == orders[i].restaurantId;
      assert draws.customers[ci] in draws.customers && draws.restaurants[xi] in draws.restaurants;
    }
  }

  /** Ids taken from the order table's id list belong to orders of the table. */
  lemma {:induction false} DeliveriesReferenceOrders(db: Db, from: nat, orderIds: seq<Key>)
    requires |orderIds| == |db.orders| && forall k :: 0 <= k < |orderIds| ==> orderIds[k] == db.orders[k].id
    requires forall i :: from <= i < |db.deliveries| ==> db.deliveries[i].orderId in orderIds
    ensures forall i :: from <= i < |db.deliveries| ==> HasOrder(db, db.deliveries[i].orderId)
  {
    forall i | from <= i < |db.deliveries| ensures HasOrder(db, db.deliveries[i].orderId) {
      var k :| 0 <= k < |orderIds| && orderIds[k] == db.deliveries[i].orderId;
      assert db.orders[k] in db.orders;
    }
  }

  /** The order loop: appends one order per draw, its keys chosen from the two id lists. */
  method InsertOrders(orders: seq<Order>, customerIds: seq<Key>, restaurantIds: seq<Key>, draws: seq<OrderDraw>)
    returns (r: Result<seq<Order>>)
    ensures r.Err? <==> |draws| > 0 && (|customerIds| == 0 || |restaurantIds| == 0)
    ensures r.Err? ==> r.error == IndexError
    ensures r.Ok? ==> |r.value| == |orders| + |draws| && r.value[..|orders|] == orders
    ensures r.Ok? ==> forall i :: |orders| <= i < |r.value| ==> r.value[i].id == draws[i - |orders|].id
    ensures r.Ok? ==> OrdersDrawnFrom(r.value, |orders|, customerIds, restaurantIds)
  {
    if |draws| > 0 && (|customerIds| == 0 || |restaurantIds| == 0) {
      return Err(IndexError);
    }
    var out := orders;
    var i := 0;
    while i < |draws|
      invariant 0 <= i <= |draws|
      invariant |out| == |orders| + i && out[..|orders|] == orders
      invariant forall j :: |orders| <= j < |out| ==> out[j].id == draws[j - |orders|].id
      invariant OrdersDrawnFrom(out, |orders|, customerIds, restaurantIds)
    {
      var d := draws[i];
      var o := Order(d.id, Choice(customerIds, d.customerPick), Choice(restaurantIds, d.restaurantPick), d.details);
      out := out + [o];
      i := i + 1;
    }
    r := Ok(out);
  }

  /** The delivery loop: appends one delivery per draw, its order chosen from `orderIds`. */
  method InsertDeliveries(deliveries: seq<Delivery>, orderIds: seq<Key>, draws: seq<DeliveryDraw>)
    returns (r: Result<seq<Delivery>>)
    ensures r.Err? <==> |draws| > 0 && |orderIds| == 0
    ensures r.Err? ==> r.error == IndexError
    ensures r.Ok? ==> |r.value| == |deliveries| + |draws| && r.value[..|deliveries|] == deliveries
    ensures r.Ok? ==> forall i :: |deliveries| <= i < |r.value| ==>
      r.value[i].id == draws[i - |deliveries|].id && r.value[i].orderId in orderIds
  {
    if |draws| > 0 && |orderIds| == 0 {
      return Err(IndexError);
    }
    var out := deliveries;
    var i := 0;
    while i < |draws|
      invariant 0 <= i <= |draws|
      invariant |out| == |deliveries| + i && out[..|deliveries|] == deliveries
      invariant forall j :: |deliveries| <= j < |out| ==> out[j].id == draws[j - |deliveries|].id && out[j].orderId in orderIds
    {
      var d := draws[i];
      out := out + [Delivery(d.id, Choice(orderIds, d.orderPick), d.details)];
      i := i + 1;
    }
    r := Ok(out);
  }

  /**
   The whole routine. It fails only when a random.choice meets an empty list,
   which generate_data's loop counts rule out; on success it appends the drawn
   rows, every new order references a customer and a restaurant inserted by
   this run, every new delivery references an order of the table, and
   referential integrity is kept.
   */
  method GenerateData(db: Db, draws: Draws) returns (r: Result<Db>)
    ensures r.Err? <==> ChoosesFromEmpty(db, draws)
    ensures r.Err? ==> r.error == IndexError
    ensures GeneratorCounts(draws) ==> r.Ok?
    ensures r.Ok? ==> r.value.customers == db.customers + draws.customers
    ensures r.Ok? ==> r.value.restaurants == db.restaurants + draws.restaurants
    ensures r.Ok? ==> |r.value.orders| == |db.orders| + |draws.orders| && r.value.orders[..|db.orders|] == db.orders
    ensures r.Ok? ==> |r.value.deliveries| == |db.deliveries| + |draws.deliveries| && r.value.deliveries[..|db.deliveries|] == db.deliveries
    ensures r.Ok? ==> forall i :: |db.orders| <= i < |r.value.orders| ==>
      r.value.orders[i].id == draws.orders[i - |db.orders|].id && DrawnFrom(r.value.orders[i], draws)
    ensures r.Ok? ==> forall i :: |db.deliveries| <= i < |r.value.deliveries| ==>
      r.value.deliveries[i].id == draws.deliveries[i - |db.deliveries|].id && HasOrder(r.value, r.value.deliveries[i].orderId)
    ensures r.Ok? && Integrity(db) ==> Integrity(r.value)
  {
    var customerIds := Ids(draws.customers, (c: Customer) => c.id);
    var restaurantIds := Ids(draws.restaurants, (x: Restaurant) => x.id);
    var orders :- InsertOrders(db.orders, customerIds, restaurantIds, draws.orders);
    var orderIds := Ids(orders, (o: Order) => o.id);
    var deliveries :- InsertDeliveries(db.deliveries, orderIds, draws.deliveries);
    var result := Db(db.customers + draws.customers, db.restaurants + draws.restaurants, orders, deliveries);
    OrdersReferenceDraws(orders, |db.orders|, draws, customerIds, restaurantIds);
    DeliveriesReferenceOrders(result, |db.deliveries|, orderIds);
    if Integrity(db) {
      GeneratedIntegrity(db, draws, result);
    }
    r := Ok(result);
  }

  /** The state generate_data commits keeps every foreign key resolvable. */
  lemma GeneratedIntegrity(db: Db, draws: Draws, result: Db)
    requires Integrity(db)
    requires result.customers == db.customers + draws.customers
    requires result.restaurants == db.restaurants + draws.restaurants
    requires |result.orders| >= |db.orders| && result.orders[..|db.orders|] == db.orders
    requires |result.deliveries| >= |db.deliveries| && result.deliveries[..|db.deliveries|] == db.deliveries
    requires forall i :: |db.orders| <= i < |result.orders| ==> DrawnFrom(result.orders[i], draws)
    requires forall i :: |db.deliveries| <= i < |result.deliveries| ==> HasOrder(result, result.deliveries[i].orderId)
    ensures Integrity(result)
  {
    forall o | o in result.orders ensures HasCustomer(result, o.customerId) && HasRestaurant(result, o.restaurantId) {
      var i :| 0 <= i < |result.orders| && result.orders[i] == o;
      if i < |db.orders| {
        assert o == result.orders[..|db.orders|][i];
        assert o in db.orders;
        var c :| c in db.customers && c.id == o.customerId;
        var x :| x in db.restaurants && x.id == o.restaurantId;
        assert c in result.customers && x in result.restaurants;
      } else {
        assert DrawnFrom(result.orders[i], draws);
        var c :| c in draws.customers && c.id == o.customerId;
        var x :| x in draws.restaurants && x.id == o.restaurantId;
        assert c in result.customers && x in result.restaurants;
      }
    }
    forall d | d in result.deliveries ensures HasOrder(result, d.orderId) {
      var i :| 0 <= i < |result.deliveries| && result.deliveries[i] == d;
      if i < |db.deliveries| {
        assert d == result.deliveries[..|db.deliveries|][i];
        assert d in db.deliveries;
        var o :| o in db.orders && o.id == d.orderId;
        var j :| 0 <= j < |db.orders| && db.orders[j] == o;
        assert result.orders[j] == result.orders[..|db.orders|][j] == o;
        assert o in result.orders;
      }
    }
  }
}

=== FILE: db_errors.dfy ===
/**
 The errors the database driver can raise into the administration layer, and the
 result type every modelled statement returns. A failed statement leaves the
 committed state as it was: no model operation ever returns a partially changed
 state together with an error.
 */
module DbErrors {

  /** Identifiers of tables and columns, kept abstract (no quoting is modelled). */
  type Ident = string

  datatype DbError =
    | UndefinedTable(table: Ident)
    | UndefinedColumn(table: Ident, column: Ident)
    | DuplicateColumn(table: Ident)
    | ValueCountMismatch(table: Ident, columns: nat, values: nat)
    | SyntaxError(table: Ident)
    | IndexError
    | IdentifierTypeError

  datatype Option<+T> = None | Some(value: T)

  datatype Result<+T> = Ok(value: T) | Err(error: DbError) {
    predicate IsFailure() {
      Err?
    }

    function PropagateFailure<U>(): Result<U>
      requires Err?
    {
      Err(error)
    }

    function Extract(): T
      requires Ok?
    {
      value
    }
  }
}

=== FILE: introspection.dfy ===
/**
 Schema introspection: the two catalog queries of DataHandler. The catalog
 (information_schema) is given as the sequence of its entries in whatever order
 the engine returns them; `get_tables` keeps that order, `get_columns` sorts by
 ordinal position.
 */
module Introspection {
  import opened DbErrors

  /** A row of information_schema.tables. */
  datatype TableEntry = TableEntry(schema: Ident, name: Ident)

  /** A row of information_schema.columns; ordinal positions start at 1. */
  datatype ColumnEntry = ColumnEntry(table: Ident, column: Ident, ordinal: nat)

  /** DataHandler.get_tables: the names of the tables of schema 'public', in catalog order. */
  function GetTables(tables: seq<TableEntry>): (r: seq<Ident>)
    ensures |r| <= |tables|
    ensures forall n :: n in r <==> exists e :: e in tables && e.schema == "public" && e.name == n
  {
    if tables == [] then []
    else
      var rest := GetTables(tables[1..]);
      assert forall e :: e in tables[1..] ==> e in tables;
      if tables[0].schema == "public" then [tables[0].name] + rest else rest
  }

  /**
   The entries of `table`. The query filters by table name only, not by schema,
   so same-named tables of other schemas are included.
   */
  function EntriesOf(catalog: seq<ColumnEntry>, table: Ident): (r: seq<ColumnEntry>)
    ensures forall e :: multiset(r)[e] == if e.table == table then multiset(catalog)[e] else 0
    ensures forall e :: e in r <==> e in catalog && e.table == table
  {
    if catalog == [] then []
    else
      var rest := EntriesOf(catalog[1..], table);
      assert catalog == [catalog[0]] + catalog[1..];
      if catalog[0].table == table then [catalog[0]] + rest else rest
  }

  predicate SortedByOrdinal(s: seq<ColumnEntry>) {
    forall i, j :: 0 <= i < j < |s| ==> s[i].ordinal <= s[j].ordinal
  }

  predicate StrictlyByOrdinal(s: seq<ColumnEntry>) {
    forall i, j :: 0 <= i < j < |s| ==> s[i].ordinal < s[j].ordinal
  }

  function InsertByOrdinal(e: ColumnEntry, s: seq<ColumnEntry>): (r: seq<ColumnEntry>)
    requires SortedByOrdinal(s)
    ensures SortedByOrdinal(r)
    ensures multiset(r) == multiset(s) + multiset{e}
    ensures |r| == |s| + 1 && (r[0] == e || (|s| > 0 && r[0] == s[0]))
  {
    if s == [] || e.ordinal <= s[0].ordinal then
      ConsSorted(e, s);
      [e] + s
    else
      var rest := InsertByOrdinal(e, s[1..]);
      assert s == [s[0]] + s[1..];
      assert s[0].ordinal <= rest[0].ordinal;
      ConsSorted(s[0], rest);
      assert multiset([s[0]] + rest) == multiset{s[0]} + multiset(rest);
      [s[0]] + rest
  }

  /** An entry no later than the head of a sorted sequence can go in front of it. */
  lemma ConsSorted(x: ColumnEntry, t: seq<ColumnEntry>)
    requires SortedByOrdinal(t)
    requires |t| > 0 ==> x.ordinal <= t[0].ordinal
    ensures SortedByOrdinal([x] + t)
  {
    var r := [x] + t;
    forall i, j | 0 <= i < j < |r| ensures r[i].ordinal <= r[j].ordinal {
      if i == 0 {
        assert r[j] == t[j - 1];
        assert t[0].ordinal <= t[j - 1].ordinal;
      } else {
        assert r[i] == t[i - 1] && r[j] == t[j - 1];
      }
    }
  }

  /** ORDER BY ordinal_position, as an insertion sort (ties keep no particular order). */
  function SortByOrdinal(s: seq<ColumnEntry>): (r: seq<ColumnEntry>)
    ensures SortedByOrdinal(r)
    ensures multiset(r) == multiset(s)
    ensures |r| == |s|
    ensures forall e :: e in r <==> e in s
  {
    if s == [] then []
    else
      assert s == [s[0]] + s[1..];
      var r := InsertByOrdinal(s[0], SortByOrdinal(s[1..]));
      assert |r| == |multiset(r)| == |multiset(s)| == |s|;
      assert forall e :: e in r <==> e in s by {
        forall e ensures e in r <==> e in s {
          assert e in r <==> e in multiset(r);
          assert e in s <==> e in multiset(s);
        }
      }
      r
  }

  function ColumnNames(s: seq<ColumnEntry>): (r: seq<Ident>)
    ensures |r| == |s|
    ensures forall i :: 0 <= i < |s| ==> r[i] == s[i].column
    ensures forall c :: c in r <==> exists e :: e in s && e.column == c
  {
    if s == [] then [] else [s[0].column] + ColumnNames(s[1..])
  }

  /**
   DataHandler.get_columns: the column names of `table` in ordinal order. An
   unknown table yields the empty list, not an error.
   */
  function GetColumns(catalog: seq<ColumnEntry>, table: Ident): (r: seq<Ident>)
    ensures |r| == |EntriesOf(catalog, table)|
    ensures forall c :: c in r <==> exists e :: e in catalog && e.table == table && e.column == c
    ensures (forall e :: e in catalog ==> e.table != table) ==> r == []
  {
    var entries := EntriesOf(catalog, table);
    assert (forall e :: e in catalog ==> e.table != table) ==> entries == [] by {
      if |entries| > 0 {
        assert entries[0] in entries;
      }
    }
    ColumnNames(SortByOrdinal(entries))
  }

  /**
   `entries` are the catalog rows of a table declaring `columns`: one per
   column, in declaration order, with strictly increasing ordinal positions.
   The positions need not be 1, 2, ...: a dropped column leaves a gap.
   */
  predicate ListsColumns(entries: seq<ColumnEntry>, table: Ident, columns: seq<Ident>) {
    && |entries| == |columns|
    && StrictlyByOrdinal(entries)
    && forall i :: 0 <= i < |entries| ==> entries[i].table == table && entries[i].column == columns[i]
  }

  /** The catalog lists exactly the declared columns of `table`, once each, in any order. */
  ghost predicate Declares(catalog: seq<ColumnEntry>, table: Ident, columns: seq<Ident>) {
    exists entries :: ListsColumns(entries, table, columns) && multiset(EntriesOf(catalog, table)) == multiset(entries)
  }

  /** The first entry of both arrangements is the one with the least ordinal. */
  lemma HeadsAgree(a: seq<ColumnEntry>, b: seq<ColumnEntry>)
    requires SortedByOrdinal(a) && StrictlyByOrdinal(b)
    requires multiset(a) == multiset(b) && |a| > 0
    ensures |b| > 0 && a[0] == b[0]
  {
    assert a[0] in multiset(b);
    var j :| 0 <= j < |b| && b[j] == a[0];
    assert b[0] in multiset(a);
    var k :| 0 <= k < |a| && a[k] == b[0];
    assert b[j].ordinal == a[0].ordinal <= a[k].ordinal == b[0].ordinal;
    assert j == 0;
  }

  lemma TailMultiset(s: seq<ColumnEntry>)
    requires |s| > 0
    ensures multiset(s[1..]) == multiset(s) - multiset{s[0]}
  {
    assert s == [s[0]] + s[1..];
  }

  /** A sorted arrangement of entries with pairwise distinct ordinals is unique. */
  lemma {:induction false} SortedArrangementUnique(a: seq<ColumnEntry>, b: seq<ColumnEntry>)
    requires SortedByOrdinal(a)
    requires StrictlyByOrdinal(b)
    requires multiset(a) == multiset(b)
    ensures a == b
    decreases |a|
  {
    assert |a| == |multiset(a)| == |multiset(b)| == |b|;
    if |a| > 0 {
      HeadsAgree(a, b);
      TailMultiset(a);
      TailMultiset(b);
      SortedArrangementUnique(a[1..], b[1..]);
      forall i | 0 <= i < |a| ensures a[i] == b[i] {
        if i > 0 {
          assert a[i] == a[1..][i - 1] && b[i] == b[1..][i - 1];
        }
      }
    }
  }

  /**
   When the catalog describes a table's declared columns, get_columns returns
   them in declaration order, whatever order the catalog lists them in.
   */
  lemma ColumnsFollowDeclaration(catalog: seq<ColumnEntry>, table: Ident, columns: seq<Ident>)
    requires Declares(catalog, table, columns)
    ensures GetColumns(catalog, table) == columns
  {
    var sorted := SortByOrdinal(EntriesOf(catalog, table));
    var declared: seq<ColumnEntry> :| ListsColumns(declared, table, columns) && multiset(EntriesOf(catalog, table)) == multiset(declared);
    SortedArrangementUnique(sorted, declared);
    var r := GetColumns(catalog, table);
    assert |r| == |columns|;
    forall i | 0 <= i < |r| ensures r[i] == columns[i] {
      assert r[i] == sorted[i].column == declared[i].column;
    }
  }
}

=== FILE: manage_data.dfy ===
/**
 The "Manage Data" page's use of the data layer: it takes the first column
 get_columns returns as the primary key, offers the remaining columns for
 update, collects one text value per column for insert, and shows its own
 success message after every delete. Widgets are inputs: the typed text, the
 index of the selected column, the key of the record to delete.
 */
module ManageData {
  import opened DbErrors
  import opened Introspection
  import opened RecordStore
  import opened ZomatoSchema
  import opened CascadeDelete

  datatype KeyChoice = KeyChoice(primaryKey: Ident, updatable: seq<Ident>)

  /**
   The key convention: columns[0] is the primary key and columns[1:] the
   update choices; indexing an empty column list raises IndexError.
   */
  function KeyConvention(columns: seq<Ident>): (r: Result<KeyChoice>)
    ensures r.Ok? <==> |columns| > 0
    ensures r.Ok? ==> columns == [r.value.primaryKey] + r.value.updatable
    ensures r.Ok? && Distinct(columns) ==> r.value.primaryKey !in r.value.updatable
  {
    if columns == [] then Err(IndexError)
    else
      assert columns == [columns[0]] + columns[1..];
      assert Distinct(columns) ==> forall i :: 0 <= i < |columns[1..]| ==> columns[1..][i] == columns[i + 1] != columns[0];
      Ok(KeyChoice(columns[0], columns[1..]))
  }

  /**
   Update Data: UPDATE the column picked among columns[1:] on the rows whose
   columns[0] equals the typed key. A selectbox over no options yields no
   column, which the identifier constructor rejects.
   */
  function ManageUpdate(store: Store, catalog: seq<ColumnEntry>, table: Ident, keyText: string, pick: nat, newText: string): (r: Result<Store>)
    ensures GetColumns(catalog, table) == [] ==> r == Err(IndexError)
    ensures |GetColumns(catalog, table)| == 1 ==> r == Err(IdentifierTypeError)
    ensures r.Ok? ==> |GetColumns(catalog, table)| >= 2 && table in store.tables
  {
    UpdateThrough(store, table, GetColumns(catalog, table), keyText, pick, newText)
  }

  /** The update the page issues, given the column list get_columns returned. */
  function UpdateThrough(store: Store, table: Ident, columns: seq<Ident>, keyText: string, pick: nat, newText: string): Result<Store> {
    var choice :- KeyConvention(columns);
    if choice.updatable == [] then Err(IdentifierTypeError)
    else
      var column := choice.updatable[pick % |choice.updatable|];
      DynamicUpdate(store, table, choice.primaryKey, Val(keyText), column, Val(newText))
  }

  /** The value typed into the input of each column, in column order. */
  function TextInputs(columns: seq<Ident>, inputs: Ident -> string): (values: seq<Value>)
    ensures |values| == |columns|
    ensures forall i :: 0 <= i < |columns| ==> values[i] == Val(inputs(columns[i]))
  {
    seq(|columns|, i requires 0 <= i < |columns| => Val(inputs(columns[i])))
  }

  /** Insert Data: one text input per introspected column, in that order. */
  function ManageInsert(store: Store, catalog: seq<ColumnEntry>, table: Ident, inputs: Ident -> string): (r: Result<Store>)
    ensures GetColumns(catalog, table) == [] ==> r == Err(SyntaxError(table))
    ensures GetColumns(catalog, table) != [] && table !in store.tables ==> r == Err(UndefinedTable(table))
  {
    var columns := GetColumns(catalog, table);
    DynamicInsert(store, catalog, table, TextInputs(columns, inputs))
  }

  datatype Notice = SuccessNotice | ErrorNotice

  function NoticeOf(report: Report): Notice {
    if report.Deleted? then SuccessNotice else ErrorNotice
  }

  /** What the Delete Data page leaves: the committed state and the messages shown, in order. */
  datatype DeletePage = DeletePage(db: Db, report: Report, notices: seq<Notice>)

  /**
   Delete Data: dynamic_delete with columns[0] as the key column, followed by
   the page's own success message, shown whatever dynamic_delete reported.
   */
  function ManageDelete(db: Db, catalog: seq<ColumnEntry>, table: Ident, key: Key): (r: Result<DeletePage>)
    ensures r.Err? <==> GetColumns(catalog, table) == []
    ensures r.Ok? ==> |r.value.notices| == 2 && r.value.notices[1] == SuccessNotice
    ensures r.Ok? ==> (r.value.notices[0] == SuccessNotice <==> r.value.report.Deleted?)
    ensures r.Ok? && r.value.report.Failed? ==> r.value.db == db
  {
    var choice :- KeyConvention(GetColumns(catalog, table));
    var out := DynamicDelete(db, table, choice.primaryKey, key);
    Ok(DeletePage(out.db, out.report, [NoticeOf(out.report), SuccessNotice]))
  }

  /** The catalog describes the four tables as TableManager declares them. */
  ghost predicate DescribesZomato(catalog: seq<ColumnEntry>) {
    forall t :: t in TableNames ==> Declares(catalog, t, DeclaredColumns(t))
  }

  /**
   Given a column list of at least two columns, the page's update is
   dynamic_update keyed by columns[0], on the column the pick selects among
   columns[1:].
   */
  lemma UpdateThroughIsKeyed(store: Store, table: Ident, cols: seq<Ident>, keyText: string, pick: nat, newText: string)
    requires |cols| >= 2
    ensures
      UpdateThrough(store, table, cols, keyText, pick, newText) ==
        DynamicUpdate(store, table, cols[0], Val(keyText), cols[1 + pick % (|cols| - 1)], Val(newText))
  {
    var choice := KeyConvention(cols).value;
    assert UpdateThrough(store, table, cols, keyText, pick, newText) ==
      DynamicUpdate(store, table, choice.primaryKey, Val(keyText), choice.updatable[pick % |choice.updatable|], Val(newText));
    assert choice.primaryKey == cols[0];
    assert choice.updatable[pick % |choice.updatable|] == cols[1 + pick % (|cols| - 1)];
    SameUpdate(store, table, choice.primaryKey, cols[0], choice.updatable[pick % |choice.updatable|], cols[1 + pick % (|cols| - 1)], Val(keyText), Val(newText));
  }

  /**
   The page's update on a table get_columns lists at least two columns for:
   dynamic_update keyed by columns[0], on the picked entry of columns[1:].
   */
  lemma ManageUpdateIsKeyedUpdate(store: Store, catalog: seq<ColumnEntry>, table: Ident, cols: seq<Ident>, keyText: string, pick: nat, newText: string)
    requires cols == GetColumns(catalog, table) && |cols| >= 2
    ensures
      ManageUpdate(store, catalog, table, keyText, pick, newText) ==
        DynamicUpdate(store, table, cols[0], Val(keyText), cols[1 + pick % (|cols| - 1)], Val(newText))
  {
    UpdateOnColumns(store, catalog, table, cols, keyText, pick, newText);
    UpdateThroughIsKeyed(store, table, cols, keyText, pick, newText);
  }

  /** Equal key and target columns give the same update. */
  lemma SameUpdate(store: Store, table: Ident, pk: Ident, pk': Ident, column: Ident, column': Ident, key: Value, newValue: Value)
    requires pk == pk' && column == column'
    ensures DynamicUpdate(store, table, pk, key, column, newValue) == DynamicUpdate(store, table, pk', key, column', newValue)
  {
  }

  /**
   The update path never targets the key column: through the page, every
   row's columns[0] cell is unchanged, and only the picked column of the
   rows with the typed key changes.
   */
  lemma ManageUpdateKeepsKeys(store: Store, catalog: seq<ColumnEntry>, table: Ident, keyText: string, pick: nat, newText: string)
    requires WellFormed(store) && Describes(catalog, store)
    requires table in store.tables && |store.tables[table].columns| >= 2
    ensures ManageUpdate(store, catalog, table, keyText, pick, newText).Ok?
    ensures
      var t, t' := store.tables[table], ManageUpdate(store, catalog, table, keyText, pick, newText).value.tables[table];
      && SetOnly(t, t', t.columns[0], Val(keyText), t.columns[1 + pick % (|t.columns| - 1)], Val(newText))
      && forall i :: 0 <= i < |t.rows| ==> Cell(t'.rows[i], t.columns[0]) == Cell(t.rows[i], t.columns[0])
  {
    DescribedColumns(store, catalog, table);
    PickNotKey(store.tables[table].columns, pick);
    ManageUpdateIsKeyedUpdate(store, catalog, table, store.tables[table].columns, keyText, pick, newText);
    KeyedUpdateKeepsKeys(store, catalog, table, keyText, pick, newText);
  }

  /** get_columns on a described table lists its columns, each once. */
  lemma DescribedColumns(store: Store, catalog: seq<ColumnEntry>, table: Ident)
    requires WellFormed(store) && Describes(catalog, store)
    requires table in store.tables
    ensures GetColumns(catalog, table) == store.tables[table].columns && Distinct(store.tables[table].columns)
  {
    ColumnsFollowDeclaration(catalog, table, store.tables[table].columns);
  }

  /** Among distinct columns, the picked update column is never the key column. */
  lemma PickNotKey(cols: seq<Ident>, pick: nat)
    requires Distinct(cols) && |cols| >= 2
    ensures cols[1 + pick % (|cols| - 1)] != cols[0]
  {
    PickInRange(|cols|, pick);
  }

  /** ManageUpdateKeepsKeys once the page's update is known to be the keyed update on the picked column. */
  lemma KeyedUpdateKeepsKeys(store: Store, catalog: seq<ColumnEntry>, table: Ident, keyText: string, pick: nat, newText: string)
    requires table in store.tables && |store.tables[table].columns| >= 2
    requires store.tables[table].columns[1 + pick % (|store.tables[table].columns| - 1)] != store.tables[table].columns[0]
    requires
      ManageUpdate(store, catalog, table, keyText, pick, newText) ==
        DynamicUpdate(store, table, store.tables[table].columns[0], Val(keyText),
          store.tables[table].columns[1 + pick % (|store.tables[table].columns| - 1)], Val(newText))
    ensures ManageUpdate(store, catalog, table, keyText, pick, newText).Ok?
    ensures
      var t, t' := store.tables[table], ManageUpdate(store, catalog, table, keyText, pick, newText).value.tables[table];
      && SetOnly(t, t', t.columns[0], Val(keyText), t.columns[1 + pick % (|t.columns| - 1)], Val(newText))
      && forall i :: 0 <= i < |t.rows| ==> Cell(t'.rows[i], t.columns[0]) == Cell(t.rows[i], t.columns[0])
  {
    PickedSetsOnly(store, table, keyText, pick, newText, ManageUpdate(store, catalog, table, keyText, pick, newText));
    KeyCellsKept(store, table, keyText, pick, newText, ManageUpdate(store, catalog, table, keyText, pick, newText));
  }

  /** ManageUpdateKeepsKeys's key-cell half: the picked column is never the key column. */
  lemma KeyCellsKept(store: Store, table: Ident, keyText: string, pick: nat, newText: string, r: Result<Store>)
    requires table in store.tables && |store.tables[table].columns| >= 2
    requires store.tables[table].columns[1 + pick % (|store.tables[table].columns| - 1)] != store.tables[table].columns[0]
    requires r.Ok? && table in r.value.tables
    requires SetOnly(store.tables[table], r.value.tables[table], store.tables[table].columns[0], Val(keyText),
      store.tables[table].columns[1 + pick % (|store.tables[table].columns| - 1)], Val(newText))
    ensures
      var t, t' := store.tables[table], r.value.tables[table];
      forall i :: 0 <= i < |t.rows| ==> Cell(t'.rows[i], t.columns[0]) == Cell(t.rows[i], t.columns[0])
  {
    var cols := store.tables[table].columns;
    SetOnlyKeepsKey(store.tables[table], r.value.tables[table], cols[0], Val(keyText), cols[1 + pick % (|cols| - 1)], Val(newText));
  }

  /** A keyed update `r` on the picked column of a table with at least two columns sets only that column. */
  lemma PickedSetsOnly(store: Store, table: Ident, keyText: string, pick: nat, newText: string, r: Result<Store>)
    requires table in store.tables && |store.tables[table].columns| >= 2
    requires r == DynamicUpdate(store, table, store.tables[table].columns[0], Val(keyText),
      store.tables[table].columns[1 + pick % (|store.tables[table].columns| - 1)], Val(newText))
    ensures r.Ok? && table in r.value.tables
    ensures SetOnly(store.tables[table], r.value.tables[table], store.tables[table].columns[0], Val(keyText),
      store.tables[table].columns[1 + pick % (|store.tables[table].columns| - 1)], Val(newText))
  {
    var cols := store.tables[table].columns;
    PickInRange(|cols|, pick);
    UpdateSetsOnly(store, table, cols[0], Val(keyText), cols[1 + pick % (|cols| - 1)], Val(newText), r);
  }

  /** The pick selects a position among columns[1:]. */
  lemma PickInRange(n: nat, pick: nat)
    requires n >= 2
    ensures 1 <= 1 + pick % (n - 1) < n
  {
  }

  /** The page's update acts on the column list get_columns returns. */
  lemma UpdateOnColumns(store: Store, catalog: seq<ColumnEntry>, table: Ident, cols: seq<Ident>, keyText: string, pick: nat, newText: string)
    requires cols == GetColumns(catalog, table)
    ensures ManageUpdate(store, catalog, table, keyText, pick, newText) == UpdateThrough(store, table, cols, keyText, pick, newText)
  {
  }

  /**
   Through the page, an insert into an existing table with at least one
   column succeeds and reads back as typed. Cells are untyped text here, so
   this holds when every text is accepted by its column's type and
   constraints; the engine's type checks are not part of the store.
   */
  lemma ManageInsertReadsBack(store: Store, catalog: seq<ColumnEntry>, table: Ident, inputs: Ident -> string)
    requires WellFormed(store) && Describes(catalog, store)
    requires table in store.tables && |store.tables[table].columns| > 0
    ensures ManageInsert(store, catalog, table, inputs).Ok?
    ensures
      DynamicRead(ManageInsert(store, catalog, table, inputs).value, catalog, table).Ok? &&
      DynamicRead(ManageInsert(store, catalog, table, inputs).value, catalog, table).value.rows ==
        DynamicRead(store, catalog, table).value.rows + [TextInputs(store.tables[table].columns, inputs)]
  {
    DescribedColumns(store, catalog, table);
    ManageInsertIsInsert(store, catalog, table, store.tables[table].columns, inputs);
    InsertThenRead(store, catalog, table, TextInputs(store.tables[table].columns, inputs));
  }

  /** The page's insert is dynamic_insert of one text per column of the list get_columns returns. */
  lemma ManageInsertIsInsert(store: Store, catalog: seq<ColumnEntry>, table: Ident, cols: seq<Ident>, inputs: Ident -> string)
    requires cols == GetColumns(catalog, table)
    ensures ManageInsert(store, catalog, table, inputs) == DynamicInsert(store, catalog, table, TextInputs(cols, inputs))
  {
  }

  /**
   On the declared schema, deleting from any of the four tables through the
   page is dynamic_delete keyed by the table's first declared column (orders
   by order_id), keeps referential integrity, and shows two success messages.
   */
  lemma ManageDeleteKeepsIntegrity(db: Db, catalog: seq<ColumnEntry>, table: Ident, key: Key)
    requires DescribesZomato(catalog)
    requires Integrity(db)
    requires table in TableNames
    ensures ManageDelete(db, catalog, table, key).Ok?
    ensures ManageDelete(db, catalog, table, key).value.notices == [SuccessNotice, SuccessNotice]
    ensures Integrity(ManageDelete(db, catalog, table, key).value.db)
    ensures ManageDelete(db, catalog, table, key).value.db == DynamicDelete(db, table, DeclaredColumns(table)[0], key).db
  {
    PageDeleteIsKeyed(db, catalog, table, key);
    KeyedDeleteKeepsIntegrity(db, catalog, table, key);
  }

  /** On the declared schema, the page's delete is dynamic_delete keyed by the first declared column. */
  lemma PageDeleteIsKeyed(db: Db, catalog: seq<ColumnEntry>, table: Ident, key: Key)
    requires DescribesZomato(catalog)
    requires table in TableNames
    ensures |DeclaredColumns(table)| > 0
    ensures table == "orders" ==> DeclaredColumns(table)[0] == "order_id"
    ensures
      ManageDelete(db, catalog, table, key) ==
        Ok(DeletePage(DynamicDelete(db, table, DeclaredColumns(table)[0], key).db, DynamicDelete(db, table, DeclaredColumns(table)[0], key).report,
          [NoticeOf(DynamicDelete(db, table, DeclaredColumns(table)[0], key).report), SuccessNotice]))
  {
    assert Declares(catalog, table, DeclaredColumns(table));
    ColumnsFollowDeclaration(catalog, table, DeclaredColumns(table));
    ManageDeleteIsKeyed(db, catalog, table, DeclaredColumns(table), key);
  }

  /** The page's delete acts on columns[0] of the column list get_columns returns. */
  lemma ManageDeleteIsKeyed(db: Db, catalog: seq<ColumnEntry>, table: Ident, cols: seq<Ident>, key: Key)
    requires cols == GetColumns(catalog, table) && |cols| > 0
    ensures
      ManageDelete(db, catalog, table, key) ==
        Ok(DeletePage(DynamicDelete(db, table, cols[0], key).db, DynamicDelete(db, table, cols[0], key).report,
          [NoticeOf(DynamicDelete(db, table, cols[0], key).report), SuccessNotice]))
  {
    assert KeyConvention(cols).value.primaryKey == cols[0];
  }

  /** ManageDeleteKeepsIntegrity once the page's delete is known to be keyed by the first declared column. */
  lemma KeyedDeleteKeepsIntegrity(db: Db, catalog: seq<ColumnEntry>, table: Ident, key: Key)
    requires Integrity(db)
    requires |DeclaredColumns(table)| > 0
    requires table == "orders" ==> DeclaredColumns(table)[0] == "order_id"
    requires
      ManageDelete(db, catalog, table, key) ==
        Ok(DeletePage(DynamicDelete(db, table, DeclaredColumns(table)[0], key).db, DynamicDelete(db, table, DeclaredColumns(table)[0], key).report,
          [NoticeOf(DynamicDelete(db, table, DeclaredColumns(table)[0], key).report), SuccessNotice]))
    ensures ManageDelete(db, catalog, table, key).Ok?
    ensures ManageDelete(db, catalog, table, key).value.notices == [SuccessNotice, SuccessNotice]
    ensures Integrity(ManageDelete(db, catalog, table, key).value.db)
    ensures ManageDelete(db, catalog, table, key).value.db == DynamicDelete(db, table, DeclaredColumns(table)[0], key).db
  {
    DeleteKeepsIntegrity(db, table, DeclaredColumns(table)[0], key);
  }
}

=== FILE: record_store.dfy ===
/**
 The generic record store of DataHandler: read, insert and update against a
 table named at run time, built only from the column list get_columns returns.
 A table has its declared column list and its rows; a row maps column names to
 cell values, and a column a row has no entry for reads as NULL.
 */
module RecordStore {
  import opened DbErrors
  import opened Introspection

  datatype Value = Null | Val(text: string)

  type Row = map<Ident, Value>

  datatype Table = Table(columns: seq<Ident>, rows: seq<Row>)

  datatype Store = Store(tables: map<Ident, Table>)

  /** The tabular result of a read: rows aligned positionally with `columns`. */
  datatype Tabular = Tabular(rows: seq<seq<Value>>, columns: seq<Ident>)

  function Cell(row: Row, column: Ident): Value {
    if column in row then row[column] else Null
  }

  predicate Distinct(columns: seq<Ident>) {
    forall i, j :: 0 <= i < j < |columns| ==> columns[i] != columns[j]
  }

  /** Every table declares each of its columns once. */
  predicate WellFormed(store: Store) {
    forall t :: t in store.tables ==> Distinct(store.tables[t].columns)
  }

  /** The catalog lists the declared columns of every table of the store. */
  ghost predicate Describes(catalog: seq<ColumnEntry>, store: Store) {
    forall t :: t in store.tables ==> Declares(catalog, t, store.tables[t].columns)
  }

  /** The first of `columns` that `declared` lacks, if any. */
  function FirstMissing(columns: seq<Ident>, declared: seq<Ident>): (r: Option<Ident>)
    ensures r.None? <==> forall c :: c in columns ==> c in declared
    ensures r.Some? ==> r.value in columns && r.value !in declared
  {
    if columns == [] then None
    else if columns[0] !in declared then Some(columns[0])
    else FirstMissing(columns[1..], declared)
  }

  function Project(row: Row, columns: seq<Ident>): (r: seq<Value>)
    ensures |r| == |columns|
    ensures forall i :: 0 <= i < |columns| ==> r[i] == Cell(row, columns[i])
  {
    seq(|columns|, i requires 0 <= i < |columns| => Cell(row, columns[i]))
  }

  /**
   DataHandler.dynamic_read: SELECT the introspected columns FROM the table.
   A missing table, or a listed column the table does not have, is an error.
   */
  function DynamicRead(store: Store, catalog: seq<ColumnEntry>, table: Ident): (r: Result<Tabular>)
    ensures table !in store.tables ==> r == Err(UndefinedTable(table))
    ensures r.Ok? ==> table in store.tables
    ensures r.Ok? ==> r.value.columns == GetColumns(catalog, table)
    ensures r.Ok? ==> |r.value.rows| == |store.tables[table].rows|
    ensures r.Ok? ==> forall i :: 0 <= i < |r.value.rows| ==>
      r.value.rows[i] == Project(store.tables[table].rows[i], r.value.columns)
  {
    var columns := GetColumns(catalog, table);
    if table !in store.tables then Err(UndefinedTable(table))
    else
      var t := store.tables[table];
      match FirstMissing(columns, t.columns)
      case Some(c) => Err(UndefinedColumn(table, c))
      case None => Ok(Tabular(seq(|t.rows|, i requires 0 <= i < |t.rows| => Project(t.rows[i], columns)), columns))
  }

  /** The statement dynamic_insert issues: every introspected column, one placeholder per value. */
  datatype InsertStatement = InsertStatement(table: Ident, columns: seq<Ident>, placeholders: nat)

  function InsertFor(catalog: seq<ColumnEntry>, table: Ident, values: seq<Value>): InsertStatement {
    InsertStatement(table, GetColumns(catalog, table), |values|)
  }

  /** The row an INSERT naming `columns` with `values` stores. */
  function RowOf(columns: seq<Ident>, values: seq<Value>): (r: Row)
    requires |columns| == |values|
    ensures r.Keys == set c | c in columns
    ensures Distinct(columns) ==> forall i :: 0 <= i < |columns| ==> Cell(r, columns[i]) == values[i]
  {
    if columns == [] then map[]
    else
      var rest := RowOf(columns[1..], values[1..]);
      assert forall c :: c in columns <==> c == columns[0] || c in columns[1..];
      assert Distinct(columns) ==> Distinct(columns[1..]) && columns[0] !in columns[1..];
      assert Distinct(columns) ==> forall i :: 1 <= i < |columns| ==> columns[i] == columns[1..][i - 1];
      rest[columns[0] := values[0]]
  }

  /** Reading the inserted row back through its own column list gives the values. */
  lemma RowReadsBack(columns: seq<Ident>, values: seq<Value>)
    requires |columns| == |values| && Distinct(columns)
    ensures Project(RowOf(columns, values), columns) == values
  {
    var p := Project(RowOf(columns, values), columns);
    assert forall i :: 0 <= i < |columns| ==> p[i] == values[i];
  }

  /**
   Executes an INSERT statement with its bound values, as the engine does. An
   empty column list renders as `INSERT INTO t () ...`, and no values as
   `... VALUES ()`; neither parses, so both fail before the table is looked up.
   */
  function ExecuteInsert(store: Store, stmt: InsertStatement, values: seq<Value>): (r: Result<Store>)
    requires stmt.placeholders == |values|
    ensures r.Ok? ==> stmt.columns != [] && stmt.table in store.tables && |stmt.columns| == |values| && Distinct(stmt.columns)
    ensures r.Ok? ==>
      var t := store.tables[stmt.table];
      r.value.tables == store.tables[stmt.table := Table(t.columns, t.rows + [RowOf(stmt.columns, values)])]
  {
    if stmt.columns == [] || stmt.placeholders == 0 then Err(SyntaxError(stmt.table))
    else if stmt.table !in store.tables then Err(UndefinedTable(stmt.table))
    else
      var t := store.tables[stmt.table];
      match FirstMissing(stmt.columns, t.columns)
      case Some(c) => Err(UndefinedColumn(stmt.table, c))
      case None =>
        if !Distinct(stmt.columns) then Err(DuplicateColumn(stmt.table))
        else if stmt.placeholders != |stmt.columns| then
          Err(ValueCountMismatch(stmt.table, |stmt.columns|, stmt.placeholders))
        else
          var row := RowOf(stmt.columns, values);
          Ok(Store(store.tables[stmt.table := Table(t.columns, t.rows + [row])]))
  }

  /**
   `after` is `store` with one row appended to `table`, reading back as
   `values` through `columns`, and nothing else changed.
   */
  predicate InsertedOnce(store: Store, after: Store, table: Ident, columns: seq<Ident>, values: seq<Value>) {
    && table in store.tables
    && after.tables.Keys == store.tables.Keys
    && (forall u :: u in store.tables && u != table ==> after.tables[u] == store.tables[u])
    && var t, t' := store.tables[table], after.tables[table];
    && t'.columns == t.columns
    && |t'.rows| == |t.rows| + 1
    && t'.rows[..|t.rows|] == t.rows
    && Project(t'.rows[|t.rows|], columns) == values
  }

  lemma InsertAppends(store: Store, stmt: InsertStatement, values: seq<Value>)
    requires stmt.placeholders == |values|
    requires ExecuteInsert(store, stmt, values).Ok?
    ensures InsertedOnce(store, ExecuteInsert(store, stmt, values).value, stmt.table, stmt.columns, values)
  {
    RowReadsBack(stmt.columns, values);
  }

  /**
   DataHandler.dynamic_insert: one INSERT naming every introspected column.
   Either the state is unchanged (an error), or exactly one row, holding the
   values positionally, is appended to the table. A table the catalog lists no
   column for, or an empty value list, yields a statement that does not parse.
   */
  function DynamicInsert(store: Store, catalog: seq<ColumnEntry>, table: Ident, values: seq<Value>): (r: Result<Store>)
    ensures GetColumns(catalog, table) == [] || values == [] ==> r == Err(SyntaxError(table))
    ensures GetColumns(catalog, table) != [] && values != [] && table !in store.tables ==> r == Err(UndefinedTable(table))
    ensures r.Ok? ==> |values| == |GetColumns(catalog, table)| > 0 && table in store.tables
    ensures r.Ok? ==> r.value.tables.Keys == store.tables.Keys
    ensures r.Ok? ==> forall u :: u in store.tables && u != table ==> r.value.tables[u] == store.tables[u]
    ensures r.Ok? ==>
      var t, t' := store.tables[table], r.value.tables[table];
      && t'.columns == t.columns
      && |t'.rows| == |t.rows| + 1
      && t'.rows[..|t.rows|] == t.rows
      && Project(t'.rows[|t.rows|], GetColumns(catalog, table)) == values
    ensures WellFormed(store) && Describes(catalog, store) && table in store.tables ==>
      (r.Ok? <==> |values| == |store.tables[table].columns| > 0)
  {
    var stmt := InsertFor(catalog, table, values);
    var r := ExecuteInsert(store, stmt, values);
    assert r.Ok? ==> InsertedOnce(store, r.value, table, stmt.columns, values) by {
      if r.Ok? {
        InsertAppends(store, stmt, values);
      }
    }
    assert WellFormed(store) && Describes(catalog, store) && table in store.tables ==>
      (r.Ok? <==> |values| == |store.tables[table].columns| > 0) by {
      if WellFormed(store) && Describes(catalog, store) && table in store.tables {
        DescribedInsert(store, catalog, table, values);
      }
    }
    r
  }

  /** On a described table, the INSERT names exactly the table's columns, so only the value count can fail it. */
  lemma DescribedInsert(store: Store, catalog: seq<ColumnEntry>, table: Ident, values: seq<Value>)
    requires WellFormed(store) && Describes(catalog, store) && table in store.tables
    ensures InsertFor(catalog, table, values).columns == store.tables[table].columns
    ensures ExecuteInsert(store, InsertFor(catalog, table, values), values).Ok? <==> |values| == |store.tables[table].columns| > 0
  {
    var t := store.tables[table];
    ColumnsFollowDeclaration(catalog, table, t.columns);
    assert Distinct(t.columns);
    assert FirstMissing(t.columns, t.columns).None?;
  }

  /** The WHERE pk = %s test: SQL equality, so a NULL key matches no row. */
  predicate Matches(row: Row, pkColumn: Ident, key: Value) {
    key.Val? && Cell(row, pkColumn) == key
  }

  function SetWhere(rows: seq<Row>, pkColumn: Ident, key: Value, column: Ident, newValue: Value): (r: seq<Row>)
    ensures |r| == |rows|
    ensures forall i :: 0 <= i < |rows| ==> r[i] == if Matches(rows[i], pkColumn, key) then rows[i][column := newValue] else rows[i]
  {
    seq(|rows|, i requires 0 <= i < |rows| =>
      if Matches(rows[i], pkColumn, key) then rows[i][column := newValue] else rows[i])
  }

  /**
   DataHandler.dynamic_update: UPDATE table SET column = newValue WHERE
   pkColumn = key. Succeeds whenever the table and both columns exist, whether
   or not any row matched. The engine resolves the WHERE clause before the SET
   list, so a missing key column is reported before a missing target column.
   */
  function DynamicUpdate(store: Store, table: Ident, pkColumn: Ident, key: Value, column: Ident, newValue: Value): (r: Result<Store>)
    ensures r.Ok? <==> table in store.tables && column in store.tables[table].columns && pkColumn in store.tables[table].columns
    ensures table !in store.tables ==> r == Err(UndefinedTable(table))
    ensures table in store.tables && pkColumn !in store.tables[table].columns ==> r == Err(UndefinedColumn(table, pkColumn))
    ensures table in store.tables && pkColumn in store.tables[table].columns && column !in store.tables[table].columns ==>
      r == Err(UndefinedColumn(table, column))
    ensures r.Ok? ==> r.value.tables.Keys == store.tables.Keys
    ensures r.Ok? ==> forall u :: u in store.tables && u != table ==> r.value.tables[u] == store.tables[u]
    ensures r.Ok? ==>
      var t, t' := store.tables[table], r.value.tables[table];
      && t'.columns == t.columns
      && |t'.rows| == |t.rows|
      && forall i, c :: 0 <= i < |t.rows| ==>
        Cell(t'.rows[i], c) == if c == column && Matches(t.rows[i], pkColumn, key) then newValue else Cell(t.rows[i], c)
  {
    if table !in store.tables then Err(UndefinedTable(table))
    else
      var t := store.tables[table];
      if pkColumn !in t.columns then Err(UndefinedColumn(table, pkColumn))
      else if column !in t.columns then Err(UndefinedColumn(table, column))
      else Ok(Store(store.tables[table := Table(t.columns, SetWhere(t.rows, pkColumn, key, column, newValue))]))
  }

  /**
   `t'` is `t` with the cell `column` of exactly the rows whose `pk` cell equals
   `key` set to `newValue`.
   */
  ghost predicate SetOnly(t: Table, t': Table, pk: Ident, key: Value, column: Ident, newValue: Value) {
    && |t'.rows| == |t.rows|
    && forall i, c :: 0 <= i < |t.rows| ==>
      Cell(t'.rows[i], c) == if c == column && Matches(t.rows[i], pk, key) then newValue else Cell(t.rows[i], c)
  }

  /** dynamic_update on existing columns, with result `r`, sets exactly the target cell of the matching rows. */
  lemma UpdateSetsOnly(store: Store, table: Ident, pk: Ident, key: Value, column: Ident, newValue: Value, r: Result<Store>)
    requires table in store.tables && pk in store.tables[table].columns && column in store.tables[table].columns
    requires r == DynamicUpdate(store, table, pk, key, column, newValue)
    ensures r.Ok? && table in r.value.tables
    ensures SetOnly(store.tables[table], r.value.tables[table], pk, key, column, newValue)
  {
  }

  /** Setting a column other than the key column never changes a key cell. */
  lemma SetOnlyKeepsKey(t: Table, t': Table, pk: Ident, key: Value, column: Ident, newValue: Value)
    requires SetOnly(t, t', pk, key, column, newValue) && column != pk
    ensures forall i :: 0 <= i < |t.rows| ==> Cell(t'.rows[i], pk) == Cell(t.rows[i], pk)
  {
  }

  /** Reading a described table returns its declared column list and its rows projected onto it. */
  lemma ReadFollowsDeclaration(store: Store, catalog: seq<ColumnEntry>, table: Ident)
    requires Describes(catalog, store)
    requires table in store.tables
    ensures DynamicRead(store, catalog, table).Ok?
    ensures DynamicRead(store, catalog, table).value.columns == store.tables[table].columns
  {
    ColumnsFollowDeclaration(catalog, table, store.tables[table].columns);
  }

  /** Two stores with the same tables and the same declared columns. */
  predicate SameShape(store: Store, other: Store) {
    && store.tables.Keys == other.tables.Keys
    && forall u :: u in store.tables ==> store.tables[u].columns == other.tables[u].columns
  }

  lemma ShapeKeepsDescription(catalog: seq<ColumnEntry>, store: Store, other: Store)
    requires SameShape(store, other)
    requires WellFormed(store) && Describes(catalog, store)
    ensures WellFormed(other) && Describes(catalog, other)
  {
    forall u | u in other.tables ensures Declares(catalog, u, other.tables[u].columns) && Distinct(other.tables[u].columns) {
      assert other.tables[u].columns == store.tables[u].columns;
    }
  }

  /** Insert round trip: after inserting `values`, a read yields the old rows followed by `values`. */
  lemma InsertThenRead(store: Store, catalog: seq<ColumnEntry>, table: Ident, values: seq<Value>)
    requires WellFormed(store) && Describes(catalog, store)
    requires table in store.tables
    requires |values| == |store.tables[table].columns| > 0
    ensures DynamicInsert(store, catalog, table, values).Ok?
    ensures
      var after := DynamicInsert(store, catalog, table, values).value;
      && WellFormed(after) && Describes(catalog, after)
      && DynamicRead(after, catalog, table) == Ok(Tabular(DynamicRead(store, catalog, table).value.rows + [values], store.tables[table].columns))
  {
    DescribedInsertAppends(store, catalog, table, values);
    var after := DynamicInsert(store, catalog, table, values).value;
    InsertKeepsShape(store, after, table, store.tables[table].columns, values);
    ShapeKeepsDescription(catalog, store, after);
    ReadAfterInsert(store, after, catalog, table, values);
  }

  /**
   The round trip without row order, which the engine does not promise: the
   rows read after the insert are the rows read before it plus one row holding
   `values`.
   */
  lemma InsertThenReadAnyOrder(store: Store, catalog: seq<ColumnEntry>, table: Ident, values: seq<Value>)
    requires WellFormed(store) && Describes(catalog, store)
    requires table in store.tables
    requires |values| == |store.tables[table].columns| > 0
    ensures DynamicInsert(store, catalog, table, values).Ok?
    ensures DynamicRead(DynamicInsert(store, catalog, table, values).value, catalog, table).Ok?
    ensures
      multiset(DynamicRead(DynamicInsert(store, catalog, table, values).value, catalog, table).value.rows) ==
        multiset(DynamicRead(store, catalog, table).value.rows) + multiset{values}
  {
    InsertThenRead(store, catalog, table, values);
  }

  lemma InsertKeepsShape(store: Store, after: Store, table: Ident, columns: seq<Ident>, values: seq<Value>)
    requires InsertedOnce(store, after, table, columns, values)
    ensures SameShape(store, after)
  {
  }

  lemma DescribedInsertAppends(store: Store, catalog: seq<ColumnEntry>, table: Ident, values: seq<Value>)
    requires WellFormed(store) && Describes(catalog, store)
    requires table in store.tables
    requires |values| == |store.tables[table].columns| > 0
    ensures GetColumns(catalog, table) == store.tables[table].columns
    ensures DynamicInsert(store, catalog, table, values).Ok?
    ensures InsertedOnce(store, DynamicInsert(store, catalog, table, values).value, table, store.tables[table].columns, values)
  {
    ColumnsFollowDeclaration(catalog, table, store.tables[table].columns);
    DescribedInsert(store, catalog, table, values);
  }

  lemma ReadAfterInsert(store: Store, after: Store, catalog: seq<ColumnEntry>, table: Ident, values: seq<Value>)
    requires table in store.tables
    requires InsertedOnce(store, after, table, store.tables[table].columns, values)
    requires GetColumns(catalog, table) == store.tables[table].columns
    ensures DynamicRead(after, catalog, table) == Ok(Tabular(DynamicRead(store, catalog, table).value.rows + [values], store.tables[table].columns))
  {
    assert FirstMissing(store.tables[table].columns, store.tables[table].columns).None?;
    var before := DynamicRead(store, catalog, table).value;
    var now := DynamicRead(after, catalog, table).value;
    var t, t' := store.tables[table], after.tables[table];
    assert before.columns == now.columns == t.columns;
    InsertedRowsLine(t, t', before, now, values);
  }

  lemma InsertedRowsLine(t: Table, t': Table, before: Tabular, now: Tabular, values: seq<Value>)
    requires |t'.rows| == |t.rows| + 1 && t'.rows[..|t.rows|] == t.rows
    requires before.columns == now.columns
    requires Project(t'.rows[|t.rows|], now.columns) == values
    requires |before.rows| == |t.rows| && |now.rows| == |t'.rows|
    requires forall i :: 0 <= i < |t.rows| ==> before.rows[i] == Project(t.rows[i], before.columns)
    requires forall i :: 0 <= i < |t'.rows| ==> now.rows[i] == Project(t'.rows[i], now.columns)
    ensures now.rows == before.rows + [values]
  {
    var expected := before.rows + [values];
    forall i | 0 <= i < |now.rows| ensures now.rows[i] == expected[i] {
      if i < |t.rows| {
        assert t'.rows[i] == t'.rows[..|t.rows|][i];
      }
    }
  }

  /** Applying the same update twice leaves the state the first application produced. */
  lemma UpdateIdempotent(store: Store, table: Ident, pkColumn: Ident, key: Value, column: Ident, newValue: Value)
    requires DynamicUpdate(store, table, pkColumn, key, column, newValue).Ok?
    ensures
      var once := DynamicUpdate(store, table, pkColumn, key, column, newValue).value;
      DynamicUpdate(once, table, pkColumn, key, column, newValue) == Ok(once)
  {
    var t := store.tables[table];
    var once := DynamicUpdate(store, table, pkColumn, key, column, newValue).value;
    var t1 := once.tables[table];
    var twice := DynamicUpdate(once, table, pkColumn, key, column, newValue).value;
    var t2 := twice.tables[table];
    assert |t2.rows| == |t1.rows|;
    forall i | 0 <= i < |t1.rows| ensures t2.rows[i] == t1.rows[i] {
      if Matches(t1.rows[i], pkColumn, key) {
        assert t2.rows[i] == t1.rows[i][column := newValue];
        assert t1.rows[i][column := newValue] == t1.rows[i];
      }
    }
    assert t2 == t1;
    assert twice.tables == once.tables;
  }

  /** An update whose key matches no row leaves the state unchanged and still succeeds. */
  lemma UpdateMissIsSilent(store: Store, table: Ident, pkColumn: Ident, key: Value, column: Ident, newValue: Value)
    requires table in store.tables
    requires column in store.tables[table].columns && pkColumn in store.tables[table].columns
    requires forall row :: row in store.tables[table].rows ==> !Matches(row, pkColumn, key)
    ensures DynamicUpdate(store, table, pkColumn, key, column, newValue) == Ok(store)
  {
    var t := store.tables[table];
    var rows := SetWhere(t.rows, pkColumn, key, column, newValue);
    assert rows == t.rows by {
      forall i | 0 <= i < |t.rows| ensures rows[i] == t.rows[i] {
        assert t.rows[i] in t.rows;
      }
    }
    assert store.tables[table := Table(t.columns, rows)] == store.tables;
  }
}

=== FILE: zomato_schema.dfy ===
/**
 The four tables TableManager.create_tables declares, as a typed state: each
 row keeps its serial id and its foreign-key columns, and the other columns
 as an opaque payload. The foreign keys are orders.customer_id and
 orders.restaurant_id (to customers and restaurants) and deliveries.order_id
 (to orders).
 */
module ZomatoSchema {
  import opened DbErrors

  type Key = int

  /** The non-key columns of a row (names, dates, amounts, ratings), kept opaque. */
  type Payload = seq<string>

  datatype Customer = Customer(id: Key, profile: Payload)

  datatype Restaurant = Restaurant(id: Key, profile: Payload)

  datatype Order = Order(id: Key, customerId: Key, restaurantId: Key, details: Payload)

  datatype Delivery = Delivery(id: Key, orderId: Key, details: Payload)

  datatype Db = Db(customers: seq<Customer>, restaurants: seq<Restaurant>, orders: seq<Order>, deliveries: seq<Delivery>)

  predicate HasCustomer(db: Db, k: Key) {
    exists c :: c in db.customers && c.id == k
  }

  predicate HasRestaurant(db: Db, k: Key) {
    exists r :: r in db.restaurants && r.id == k
  }

  predicate HasOrder(db: Db, k: Key) {
    exists o :: o in db.orders && o.id == k
  }

  /** Referential integrity: every foreign key resolves to an existing row. */
  predicate Integrity(db: Db) {
    && (forall o :: o in db.orders ==> HasCustomer(db, o.customerId) && HasRestaurant(db, o.restaurantId))
    && (forall d :: d in db.deliveries ==> HasOrder(db, d.orderId))
  }

  /** A declared foreign key: `column` of `table` references `refColumn` of `refTable`. */
  datatype ForeignKey = ForeignKey(table: Ident, column: Ident, refTable: Ident, refColumn: Ident)

  const ForeignKeys: seq<ForeignKey> := [
    ForeignKey("orders", "customer_id", "customers", "customer_id"),
    ForeignKey("orders", "restaurant_id", "restaurants", "restaurant_id"),
    ForeignKey("deliveries", "order_id", "orders", "order_id")
  ]

  /** The values a key column of the typed state holds; columns outside the typed keys hold none. */
  function KeyColumn(db: Db, table: Ident, column: Ident): set<Key> {
    if table == "customers" && column == "customer_id" then set c | c in db.customers :: c.id
    else if table == "restaurants" && column == "restaurant_id" then set x | x in db.restaurants :: x.id
    else if table == "orders" && column == "order_id" then set o | o in db.orders :: o.id
    else if table == "orders" && column == "customer_id" then set o | o in db.orders :: o.customerId
    else if table == "orders" && column == "restaurant_id" then set o | o in db.orders :: o.restaurantId
    else if table == "deliveries" && column == "delivery_id" then set d | d in db.deliveries :: d.id
    else if table == "deliveries" && column == "order_id" then set d | d in db.deliveries :: d.orderId
    else {}
  }

  /** A REFERENCES constraint holds: every value of the column occurs in the referenced column. */
  predicate Enforced(db: Db, fk: ForeignKey) {
    KeyColumn(db, fk.table, fk.column) <= KeyColumn(db, fk.refTable, fk.refColumn)
  }

  /** Integrity is exactly the conjunction of the declared REFERENCES constraints. */
  lemma IntegrityIsDeclaredKeys(db: Db)
    ensures Integrity(db) <==> forall fk :: fk in ForeignKeys ==> Enforced(db, fk)
  {
    var customers := KeyColumn(db, "customers", "customer_id");
    var restaurants := KeyColumn(db, "restaurants", "restaurant_id");
    var orders := KeyColumn(db, "orders", "order_id");
    assert forall k :: k in customers <==> HasCustomer(db, k);
    assert forall k :: k in restaurants <==> HasRestaurant(db, k);
    assert forall k :: k in orders <==> HasOrder(db, k);
    assert Enforced(db, ForeignKeys[0]) <==> forall o :: o in db.orders ==> HasCustomer(db, o.customerId);
    assert Enforced(db, ForeignKeys[1]) <==> forall o :: o in db.orders ==> HasRestaurant(db, o.restaurantId);
    assert Enforced(db, ForeignKeys[2]) <==> forall d :: d in db.deliveries ==> HasOrder(db, d.orderId);
    assert forall fk :: fk in ForeignKeys <==> fk == ForeignKeys[0] || fk == ForeignKeys[1] || fk == ForeignKeys[2];
  }

  const CustomerColumns: seq<Ident> := ["customer_id", "name", "email", "phone", "location",
    "signup_date", "is_premium", "preferred_cuisine", "total_orders", "average_rating"]

  const RestaurantColumns: seq<Ident> := ["restaurant_id", "name", "cuisine_type", "location",
    "owner_name", "average_delivery_time", "contact_number", "rating", "total_orders", "is_active"]

  const OrderColumns: seq<Ident> := ["order_id", "customer_id", "restaurant_id", "order_date",
    "delivery_time", "status", "total_amount", "payment_mode", "discount_applied", "feedback_rating"]

  const DeliveryColumns: seq<Ident> := ["delivery_id", "order_id", "delivery_status", "distance",
    "delivery_time", "estimated_time", "delivery_fee", "vehicle_type"]

  const TableNames: seq<Ident> := ["customers", "restaurants", "orders", "deliveries"]

  /** The declared column list of each table, in declaration order; unknown tables have none. */
  function DeclaredColumns(table: Ident): seq<Ident> {
    if table == "customers" then CustomerColumns
    else if table == "restaurants" then RestaurantColumns
    else if table == "orders" then OrderColumns
    else if table == "deliveries" then DeliveryColumns
    else []
  }

  /**
   The declared shape is consistent: every foreign-key column is a column of
   its table, and every referenced column is the first declared column of the
   referenced table, that is, its SERIAL PRIMARY KEY.
   */
  lemma ForeignKeysReferenceFirstColumns()
    ensures forall fk :: fk in ForeignKeys ==>
      && fk.column in DeclaredColumns(fk.table)
      && |DeclaredColumns(fk.refTable)| > 0
      && DeclaredColumns(fk.refTable)[0] == fk.refColumn
  {
    forall fk | fk in ForeignKeys
      ensures fk.column in DeclaredColumns(fk.table)
      ensures |DeclaredColumns(fk.refTable)| > 0 && DeclaredColumns(fk.refTable)[0] == fk.refColumn
    {
      if fk == ForeignKeys[0] {
        assert OrderColumns[1] == "customer_id";
      } else if fk == ForeignKeys[1] {
        assert OrderColumns[2] == "restaurant_id";
      } else {
        assert DeliveryColumns[1] == "order_id";
      }
    }
  }
}
